=== FILE: README.md ===
# snarkOS peer networking, modelled in Dafny

This project models the peer-management core of the snarkOS network crate:

- the **peer book**, with its three collections: peers being dialled (`connecting`), connected peers and their records, and known-but-disconnected peers;
- the per-peer record `PeerInfo` and its `PeerQuality` statistics: last seen, ping/pong round trip, failures, and the sync-block countdown;
- the crawler's **network topology**: connections between addresses, refreshed from the peer lists nodes report, plus two integer network measures;
- the **peer policies** of `peers.rs`:
  - admission checks and dialling;
  - the handshake's bookkeeping, with success, failure and timeout paths;
  - disconnection;
  - periodic maintenance: evicting poor peers, trimming to the configured targets, dialling bootnodes and known peers, asking for peers, and pinging;
  - sharing and ingesting peer lists;
- the node's **inbound message dispatch** (`process_incoming_messages`). It routes every message kind either to the peer book or, as an effect, to the consensus layer.

The model is purely functional. A node is the immutable value `Peers.Node`: the book, the set of open channels, the node's own listener address and its configuration. Each operation returns a new value.

Rust's integer behaviour is written out:
- `len() as u16` truncation;
- the wrapping `fetch_add`/`fetch_sub` on atomic counters;
- `saturating_sub`;
- `u32` wrap-around in release builds.

The node-level invariant `Peers.Consistent` has two parts. The three peer collections follow the book's rules (`PeerBooks.Valid`: no address is both connected and disconnected, map keys match the records' addresses, and a pong is awaited only after a ping was sent). Also, the node holds an open channel for exactly its connected peers.

Modules:
- `Base`: options, results, fixed-width integers;
- `Addresses`: socket addresses and their ordering;
- `Errors`: `NetworkError`;
- `Messages`: the message catalogue and the constants `SHARED_PEER_COUNT` and `MAX_BLOCK_SYNC_COUNT`;
- `PeerInfos`;
- `PeerBooks` and `PeerBookProperties`;
- `Topology`;
- `Peers`;
- `Dispatch`.

## Model

| member | source | states |
|---|---|---|
| PeerInfos.New | network/src/peers/peer_info.rs:108-119 | A fresh record is routable, has never connected, has no connection times and no tasks, and expects no pong. |
| PeerInfos.SetConnected | network/src/peers/peer_info.rs:172-182 | Connecting bumps the connection count and stamps last-connected and last-seen. First-connected is set only if it was unset. Everything else is kept. |
| PeerInfos.SetDisconnected | network/src/peers/peer_info.rs:190-207 | Disconnecting stamps last-disconnected and stops awaiting a pong. It zeroes the sync countdown and drains the task list. Every other quality field (last seen, ping time, round trip, failures, message count, height) survives, as do the address, the routable flag and the connection history. |
| PeerInfos.ShutdownOrder | network/src/peers/peer_info.rs:195-206 | Tasks are shut down newest first. An abortable task is aborted; any other task is awaited with a deadline. |
| PeerInfos.RegisterTask | network/src/peers/peer_info.rs:209-211 | A task is appended after the existing ones, and nothing else in the record changes. |
| PeerInfos.IsInactive | network/src/peers/peer_info.rs:63-73 | A peer never seen is inactive. A seen peer is inactive exactly when strictly more than the window has passed since it was last seen. |
| PeerInfos.FreshPeerHasNoHistory | network/src/peers/peer_info.rs:63-73 | A fresh record has a consistent history and counts as inactive at every time, since it was never seen. |
| PeerInfos.TransitionsKeepHistory | network/src/peers/peer_info.rs:172-207 | Connecting and disconnecting keep the history consistent: connection times exist exactly when the count is positive, and a pong is awaited only after a ping. |
| PeerInfos.FirstConnectedIsSticky | network/src/peers/peer_info.rs:175-177 | After two connections, first-connected holds the first time (or the older value) and last-connected holds the second. |
| PeerInfos.ConnectedPeerIsActive | network/src/peers/peer_info.rs:63-73 | A peer that just connected is active for the whole inactivity window. |
| PeerInfos.InactivityIsMonotone | network/src/peers/peer_info.rs:63-73 | A silent peer that is inactive stays inactive at every later time. |
| PeerInfos.NewestTaskShutsDownFirst | network/src/peers/peer_info.rs:195-211 | The most recently registered task is the first one shut down, and the older tasks follow in their previous order. |
| PeerBooks.GetPeer | network/src/peers/peer_book.rs:283-297 | A record is returned exactly when the peer is connected, or disconnected while disconnected peers are allowed. The connected record wins. |
| PeerBooks.SetConnecting | network/src/peers/peer_book.rs:180-190 | Dialling fails with `PeerAlreadyConnected` exactly when the peer is connected. Otherwise only the connecting set grows. |
| PeerBooks.SetConnected | network/src/peers/peer_book.rs:195-224 | The peer leaves `connecting` and moves under its listener address into `connected`, reusing its disconnected record if it has one. Every other connected record is kept. |
| PeerBooks.SetDisconnected | network/src/peers/peer_book.rs:230-255 | A peer being dialled only leaves `connecting`. A connected peer moves its updated record into `disconnected`, and the result reports that move. An unknown peer changes nothing. |
| PeerBooks.SetUnroutable | network/src/peers/peer_book.rs:257-262 | Only the routable flag of that disconnected record is cleared. |
| PeerBooks.AddPeer | network/src/peers/peer_book.rs:267-278 | An unknown address gets a fresh disconnected record. A known address changes nothing. Afterwards the address is always known. |
| PeerBooks.RemovePeer | network/src/peers/peer_book.rs:305-311 | The peer leaves `connecting` and `disconnected`. It leaves `connected` unless it was also being dialled. Every other address keeps its membership and its record: the maps are exactly the old ones minus that peer. |
| PeerBooks.RegisterMessage | network/src/peers/peer_book.rs:336-343 | For a connected peer, last-seen becomes now and the message count grows by one (wrapping). Every other peer and collection is untouched. |
| PeerBooks.SendingPing | network/src/peers/peer_book.rs:345-354 | For a connected peer, a pong is now awaited and the ping time is recorded. Nothing else changes. |
| PeerBooks.ReceivedPing | network/src/peers/peer_book.rs:357-363 | For a connected peer, the block height it reported is recorded. Nothing else changes. |
| PeerBooks.ReceivedPong | network/src/peers/peer_book.rs:366-381 | A pong stops the wait. An expected pong records the time since the ping as the round trip and changes nothing else in the record. An unexpected pong only counts one more failure (wrapping). Every other record and collection is untouched. |
| PeerBooks.RegisterFailure | network/src/peers/peer_book.rs:423-427 | For a connected peer, the failure count grows by one (wrapping). Nothing else changes. |
| PeerBooks.ExpectingSyncBlocks | network/src/peers/peer_book.rs:384-392 | Arming the sync countdown succeeds exactly for connected peers. The countdown is the batch size truncated to `u32`. |
| PeerBooks.GotSyncBlock | network/src/peers/peer_book.rs:395-404 | A sync block decrements the countdown (wrapping). It reports the end of the batch exactly when the countdown was 1. |
| PeerBooks.CancelSyncing | network/src/peers/peer_book.rs:407-420 | An unfinished countdown is cleared and counted as one failure. A finished countdown leaves the record as is. |
| PeerBooks.CancelAnyUnfinishedSyncing | network/src/peers/peer_book.rs:407-420 | Every connected record has its unfinished sync cancelled. Membership is kept. |
| PeerBooks.RegisterTask | network/src/peers/peers.rs:539-542 | For a connected peer, the task is appended to that peer's task list. Nothing else changes. |
| PeerBooks.LastSeen | network/src/peers/peer_book.rs:320-330 | Returns a connected peer seen no earlier than any other connected peer, or nothing when no peer is connected. |
| PeerBooks.NonLoopback | network/src/peers/peer_book.rs:38-51 | Keeps exactly the records whose address is not a loopback address. |
| PeerBooks.Save | network/src/peers/peer_book.rs:38-51 | The saved list holds each non-loopback connected or disconnected record exactly once. |
| PeerBooks.Collect | network/src/peers/peer_book.rs:56-61 | The map built from a list holds only records of that list, each under its own non-loopback address. |
| PeerBooks.CollectKeepsEveryAddress | network/src/peers/peer_book.rs:56-61 | Every non-loopback address of the list is a key of the collected map. |
| PeerBooks.CollectKeepsLastRecord | network/src/peers/peer_book.rs:56-61 | For every non-loopback address, the collected map holds the last record listed with it, since each insert overwrites the one before. |
| PeerBooks.NumberOfConnecting | network/src/peers/peer_book.rs:133-135 | The connecting count as `u16`: exact below 2^16, never larger than the true count, and zero at exactly 2^16. |
| PeerBooks.NumberOfConnected | network/src/peers/peer_book.rs:141-143 | The connected count as `u16`: exact below 2^16, never larger than the true count, and zero at exactly 2^16. |
| PeerBooks.Restore | network/src/peers/peer_book.rs:53-65 | A restored book has nothing connecting or connected. Every non-loopback record of the list is restored as disconnected, keyed by its own address; when an address is listed twice the later record wins. No record outside the list appears. |
| PeerBookProperties.EmptyIsValid | network/src/peers/peer_book.rs:109-131 | The empty book satisfies the book invariant. |
| PeerBookProperties.SetConnectingPreservesValid | network/src/peers/peer_book.rs:180-190 | Dialling keeps the book invariant. |
| PeerBookProperties.SetConnectedPreservesValid | network/src/peers/peer_book.rs:195-224 | Connecting keeps the book invariant, including the rule that no peer is both connected and disconnected. |
| PeerBookProperties.SetDisconnectedPreservesValid | network/src/peers/peer_book.rs:230-255 | Disconnecting keeps the book invariant. |
| PeerBookProperties.MembershipUpdatesPreserveValid | network/src/peers/peer_book.rs:257-311 | Adding, removing and marking a peer unroutable keep the book invariant. |
| PeerBookProperties.QualityUpdatesPreserveValid | network/src/peers/peer_book.rs:336-404 | Every quality update keeps the invariant, including the ping/pong pairing that `received_pong` relies on. |
| PeerBookProperties.CancelSyncingPreservesValid | network/src/peers/peer_book.rs:407-420 | Cancelling unfinished syncs keeps the book invariant. |
| PeerBookProperties.RegisterTaskPreservesValid | network/src/peers/peers.rs:539-542 | Registering a connection task keeps the book invariant. |
| PeerBookProperties.AddPeerIdempotent | network/src/peers/peer_book.rs:267-278 | Adding the same peer twice is the same as adding it once. |
| PeerBookProperties.ReconnectReusesRecord | network/src/peers/peer_book.rs:507-522 | A peer that disconnects and reconnects keeps its record: the count grows by one, first-connected is kept, and the disconnect time is remembered. |
| PeerBookProperties.ScenarioConnectingFromNeverConnected | network/src/peers/peer_book.rs:436-450 | A peer that is added and then dialled is both connecting and disconnected. |
| PeerBookProperties.ScenarioConnectedFromConnecting | network/src/peers/peer_book.rs:452-465 | A dialled peer that connects is only connected. |
| PeerBookProperties.ScenarioDisconnectedFromConnecting | network/src/peers/peer_book.rs:468-483 | Disconnecting a known peer during dialling leaves it only disconnected. |
| PeerBookProperties.ScenarioDisconnectedFromConnected | network/src/peers/peer_book.rs:486-505 | A connected peer that disconnects is only disconnected. After reconnecting it has two connections. |
| PeerBookProperties.CountDownAnswers | network/src/peers/peer_book.rs:395-404 | With a countdown of m, the first k sync blocks report the end of the batch only at block m. |
| PeerBookProperties.SyncBatchFinishesOnLastBlock | network/src/peers/peer_book.rs:384-404 | Arming a batch of n blocks means exactly the n-th block ends it. |
| PeerBookProperties.UnexpectedSyncBlockWraps | network/src/peers/peer_book.rs:395-404 | An unexpected sync block ends nothing, and it wraps the countdown to the largest `u32`. |
| PeerBookProperties.CollectListed | network/src/peers/peer_book.rs:53-65 | Collecting a list that holds each record of a map once rebuilds that map. |
| PeerBookProperties.RestoreAfterSave | network/src/peers/peer_book.rs:38-65 | Restoring a saved book gives every saved record back as a disconnected peer, and nothing else. |
| PeerBookProperties.RestoreKeepsEveryRemotePeer | network/src/peers/peer_book.rs:38-65 | After a round trip, every non-loopback peer the book knew is disconnected with its old record, and no unknown peer appears. |
| Addresses.CmpEqualIff | network/src/topology.rs:51-67 | The address ordering that the connection hash uses is total: two addresses compare equal exactly when they are equal. |
| Addresses.CmpFlip | network/src/topology.rs:51-67 | Swapping the operands reverses the comparison. |
| Topology.SameConnection | network/src/topology.rs:42-49 | Two connections are equal exactly when they join the same set of endpoints. |
| Topology.HashedPair | network/src/topology.rs:51-67 | The hashed pair is an equal connection whose smaller endpoint comes first. |
| Topology.SameConnectionIsUnordered | network/src/topology.rs:42-49 | Connection equality ignores orientation and is an equivalence relation. |
| Topology.HashAgreesWithEquality | network/src/topology.rs:42-67 | Two connections are equal exactly when they hash the same endpoint pair. |
| Topology.Update | network/src/topology.rs:76-104 | An update keeps the stored set normalised, with one representative per connection. |
| Topology.UpdateReplacesSourceConnections | network/src/topology.rs:76-104 | After an update, the connections touching the source are exactly those the peer list reports. |
| Topology.UpdateKeepsOtherConnections | network/src/topology.rs:76-104 | An update keeps every connection that does not touch the source. |
| Topology.UpdateConnectsExactlyReported | network/src/topology.rs:76-104 | After an update, the source is connected to an address exactly when the list reports it. |
| Topology.UpdateOfKnownConnectionsIsNoOp | network/src/topology.rs:76-104 | Reporting again what is stored changes nothing. |
| Topology.UpdateIdempotent | network/src/topology.rs:76-104 | Applying the same report twice equals applying it once. |
| Topology.ScenarioConnectionsUpdate | network/src/topology.rs:380-400 | Following the unit test: a reports b and c; b's report adds nothing; c's report drops a–c and adds c–b. |
| Topology.TotalConnectionCount | network/src/topology.rs:214-222 | The count is half the sum of the nodes' connected-peer counts, taken modulo 2^16. Below 2^16 it is exactly half the sum. |
| Topology.DegreeCentralityDelta | network/src/topology.rs:278-284 | The result is the largest connected-peer count minus the smallest. Both are attained by some node and bound every node. |
| Peers.CanConnect | network/src/peers/peers.rs:589-604 | A new dial is admitted exactly when connected plus connecting peers, each read as `u16`, is below the maximum. Below 2^16 this is the true total. |
| Peers.IsSelfConnect | network/src/peers/peers.rs:162-167 | The node's own address is a self-connect, and so is any unspecified or loopback address on the node's own port. Any self-connect is on the node's own port, and if its IP differs from the node's it is unspecified or loopback. |
| Peers.ConnectionPrecheck | network/src/peers/peers.rs:157-173 | Each rejection happens exactly when its condition holds and every earlier check passed: too many, then self-connect, then already dialling, then already connected. Passing all checks means `set_connecting` succeeds. |
| Peers.NodeSetConnected | network/src/peers/peers.rs:498-552 | It fails exactly when the listener address is already connected. On success the node gains a channel for the listener, the book records the connection, and a reader task and then a writer task are registered. |
| Peers.InitiateConnection | network/src/peers/peers.rs:153-273 | A failed precheck changes nothing and returns its error. After the prechecks, the dial succeeds exactly when the handshake completes, leaving the peer connected with a channel. A failed or timed-out handshake leaves the peer in `connecting` and returns the matching error. |
| Peers.DisconnectFromPeer | network/src/peers/peers.rs:486-495 | The book disconnects the peer. Its channel closes exactly when it really left `connected`. No other address changes. |
| Peers.MarkFailedDial | network/src/peers/peers.rs:298-311 | After a failed dial the peer is no longer dialling. A known peer becomes unroutable, and no disconnected record is lost. |
| Peers.DialFailureResponse | network/src/peers/peers.rs:398-411 | Benign errors (already connecting, already connected, too many connections) change nothing. Any other error leaves the peer not dialling and, if known, unroutable. |
| Peers.DialFailureResponseAsWritten | network/src/peers/peers.rs:398-411 | As written for peer dials, a self-connect error is also treated as benign, so nothing is cleaned up. |
| Peers.Dial | network/src/peers/peers.rs:295-313 | One dial with the failure handling the bootnode path uses, applied to every dial. It keeps the node's identity. When the prechecks pass, the peer ends connected exactly when the handshake completes. |
| Peers.DialAsWritten | network/src/peers/peers.rs:396-413 | One dial of a bootnode or a peer, with the failure handling as written. It keeps the node's identity, and when the prechecks pass the peer ends connected exactly when the handshake completes. |
| Peers.DialLeavesNoPendingHandshake | network/src/peers/peers.rs:153-273 | With the corrected failure handling, a dial never leaves the peer in `connecting`, whatever the handshake outcome. |
| Peers.DialAsWrittenLeaksSelfConnect | network/src/peers/peers.rs:398-411 | As written, a peer dial that passes the prechecks but whose handshake reports a self-connect leaves the address in `connecting`. |
| Peers.ScenarioSelfConnectLeak | network/src/peers/peers.rs:398-411 | A concrete node and remote address for which the as-written dial leaks the address and the corrected dial does not. |
| Peers.NodeSetConnectedPreservesConsistency | network/src/peers/peers.rs:498-552 | Registering a connection keeps the node invariant: channels match connected peers. |
| Peers.InitiateConnectionPreservesConsistency | network/src/peers/peers.rs:153-273 | Every outcome of a dial keeps the node invariant. |
| Peers.DialPreservesConsistency | network/src/peers/peers.rs:153-273 | A dial together with its failure handling keeps the node invariant. |
| Peers.DialRespectsMaxPeers | network/src/peers/peers.rs:157-160 | A successful dial never brings connected plus connecting peers above the maximum. |
| Peers.MarkFailedDialPreservesConsistency | network/src/peers/peers.rs:298-311 | Cleaning up after a failed dial keeps the node invariant. |
| Peers.DisconnectFromPeerIsLocal | network/src/peers/peers.rs:486-495 | The effect on an address depends only on that address's standing and channel. |
| Peers.DisconnectAll | network/src/peers/peers.rs:60-73 | Disconnecting a list of peers in turn keeps the node's identity, and leaves the standing and channel of every unlisted address as they were. |
| Peers.DisconnectAllEffect | network/src/peers/peers.rs:58-74 | Disconnecting a list of distinct peers leaves unlisted addresses alone. Each listed address ends as if it alone had been disconnected. |
| Peers.DisconnectAllPreservesConsistency | network/src/peers/peers.rs:58-74 | Disconnecting any list of peers keeps the node invariant. |
| Peers.QualityEvictions | network/src/peers/peers.rs:58-74 | Exactly the connected non-bootnode peers that are inactive, have a round trip over 1500 ms, or have 3 or more failures are evicted. |
| Peers.IsLowQuality | network/src/peers/peers.rs:67-69 | A round trip over 1500 ms, 3 or more failures, or inactivity each make a peer low quality, and nothing else does. |
| Peers.PeerCountTargets | network/src/peers/peers.rs:88-105 | An ordinary node trims to at most max peers, and dials nothing once connected plus connecting peers reach min peers; otherwise it dials exactly up to min peers. A bootnode trims to min peers, and dials until 2·min + dials reach max. Drops never exceed the connected count. |
| Peers.Latest | network/src/peers/peers.rs:107-131 | The chosen peer has a latest timestamp in the pool. |
| Peers.SelectVictims | network/src/peers/peers.rs:107-131 | Selects min(n, pool) distinct peers. When newest-first is asked, they are sorted newest first and are no older than any peer kept. |
| Peers.ChooseMultiple | network/src/peers/peers.rs:388-393 | `choose_multiple`, as used when dialling disconnected peers and again when sharing peers (lines 559-563): a random choice returns min(amount, pool) distinct members of the pool. |
| Peers.BootnodesToDial | network/src/peers/peers.rs:284-315 | Bootnodes are dialled exactly when they are not the node itself. The node's own address is never dialled. |
| Peers.ConnectCandidates | network/src/peers/peers.rs:372-415 | Chooses min(count, candidates) distinct disconnected peers, none of them the node itself or a bootnode. |
| Peers.ShouldAskForPeers | network/src/peers/peers.rs:420-431 | A bootnode always asks for peers. An ordinary node asks exactly when connected plus connecting peers are below min peers, as long as neither count reaches 2^16; a true total below min always asks. |
| Peers.GetPeersRequests | network/src/peers/peers.rs:418-437 | A bootnode, or a node below min peers, asks every connected peer for peers. Otherwise nobody is asked. |
| Peers.BroadcastPings | network/src/peers/peers.rs:440-458 | Every connected peer gets exactly one ping carrying the block height (0 when unknown) and now awaits a pong sent at this time. Membership is kept. |
| Peers.BroadcastPingsSendsEachPing | network/src/peers/peers.rs:440-458 | Each peer's record after the broadcast is what `sending_ping` alone would give. |
| Peers.PingThenPongMeasuresRoundTrip | network/src/peers/peer_book.rs:366-381 | A pong after a broadcast ping records the elapsed time as round trip, clears the wait and adds no failure. |
| Peers.BroadcastPingsPreservesConsistency | network/src/peers/peers.rs:440-458 | Pinging keeps the node invariant. |
| Peers.SendPeers | network/src/peers/peers.rs:554-566 | The answer to `GetPeers` lists min(25, other connected peers) distinct connected peers, never the asker. |
| Peers.EvictLowQuality | network/src/peers/peers.rs:58-74 | Exactly the poor peers are disconnected, each once. No other address changes, and the node stays consistent. |
| Peers.TrimToTarget | network/src/peers/peers.rs:88-131 | Drops as many peers as the targets demand. For an ordinary node these are the most recently connected peers. No other address changes, and the node stays consistent. |
| Peers.BroadcastIfConnected | network/src/peers/peers.rs:143-150 | With no connected peer nothing is sent or changed. Otherwise every connected peer gets a ping with the block height (0 when unknown) and now awaits a pong sent at this time. A connected peer gets `GetPeers` exactly when the node should ask for peers. Nothing else is sent, and membership is kept. |
| Peers.UpdatePeers | network/src/peers/peers.rs:51-151 | The whole maintenance round keeps the invariant and evicts exactly the poor peers. It trims by the targets computed after eviction, and every trimmed peer not being dialled ends disconnected. It dials bootnodes only when no peer remains. It dials min(dial target, candidates) disconnected peers of the trimmed node, never the node itself or a bootnode, and none when the target is 0. Every connected peer is pinged and asked for peers exactly when the node should ask; nothing is sent when no peer is connected. |
| Peers.EvictedStayDisconnected | network/src/peers/peers.rs:58-131 | A peer evicted for low quality stays disconnected through trimming and pinging, because trimming only touches peers that are still connected. |
| Peers.DistinctCoversPool | network/src/peers/peers.rs:58-74 | A duplicate-free list as large as its pool covers the pool, so the eviction pass, which lists every poor peer once, disconnects all of them. |
| Peers.AddPeers | network/src/peers/peers.rs:571-587 | Ingesting a peer list never touches the connected or connecting peers. |
| Peers.AddPeersPreservesValid | network/src/peers/peers.rs:571-587 | Ingesting a peer list keeps the book invariant. |
| Peers.AddPeersEffect | network/src/peers/peers.rs:571-587 | Ingesting a peer list adds exactly the listed unknown addresses other than the node's own, each as a fresh disconnected record. Known and unlisted addresses keep their standing. |
| Peers.ProcessInboundPeers | network/src/peers/peers.rs:571-587 | Every listed address except the node's own becomes known, and nothing else changes. The crawler's topology then records for the source exactly the reported connections. |
| Dispatch.ProcessIncoming | network/src/lib.rs:191-204 | Routing keeps the book invariant and the node's identity. An unreadable queue gives `ReceiverFailedToParse`. A bootnode ignores everything but `GetPeers` and internal messages. |
| Dispatch.Filtered | network/src/lib.rs:194-197 | Only a bootnode filters. It never filters internal messages, and it filters every other message except `GetPeers`. |
| Dispatch.Route | network/src/lib.rs:205-291 | Every message kind keeps the book invariant and the node's identity. |
| Dispatch.BootnodeAnswersOnlyGetPeers | network/src/lib.rs:194-197 | A bootnode drops every non-internal message except `GetPeers`, and answers `GetPeers` by sharing its peers. |
| Dispatch.ControlMessagesNeedInternal | network/src/lib.rs:207-216 | Connection-control messages change the book only when they are internal. Otherwise they are ignored. |
| Dispatch.PingIsAnsweredWithPong | network/src/lib.rs:268-285 | Every inbound ping is answered with a pong to its sender, right after the sender's last-seen time is updated. |
| Dispatch.StartsSync | network/src/lib.rs:274-276 | A sync starts only when consensus wants one and the sender is not already syncing. The height must exceed ours plus one; at the largest `u32` height the sum wraps to 0, so any positive height qualifies. |
| Dispatch.PingStartsSyncIff | network/src/lib.rs:268-285 | A ping starts a block sync exactly when the sender is ahead of the next height, syncing is wanted and the sender is not already syncing. Otherwise syncing is marked finished. |
| Dispatch.SyncArmsCountdown | network/src/lib.rs:253-256 | A `Sync` message arms the sender's countdown with the number of hashes and passes them on. |
| Dispatch.SyncBlockFinishesIff | network/src/lib.rs:229-234 | A sync block finishes the batch exactly when consensus accepts it and it was the last expected block. |
| Dispatch.SyncBatchEndsOnLastBlock | network/src/lib.rs:229-256 | After a `Sync` of n hashes, exactly the n-th following sync block ends the batch. |
| Dispatch.RequestsServedOnlyWhenNotSyncing | network/src/lib.rs:235-252 | Block, mempool and sync requests are served only when the node is not syncing. Then the sender's last-seen time is updated and the request goes to consensus with its sender and its hashes or locator. Otherwise only the last-seen time is updated. |
| Dispatch.ConsensusPayloadsPassedOn | network/src/lib.rs:217-247 | A transaction, block or memory pool from a peer reaches consensus as the matching call, with the sender where the call takes one and a block marked for relay. The book is unchanged, and the loop returns what consensus returned. |
| Dispatch.PongUpdatesSenderRecord | network/src/lib.rs:286-288 | A pong from a peer updates that peer's record as `received_pong` does, after its last-seen time is refreshed, and nothing else changes. |
| Dispatch.PanicsOnlyWithoutSenderOrConsensus | network/src/lib.rs:217-288 | Dispatch panics only when a peer message lacks a sender (the `source.unwrap()` calls) or consensus is absent (the `expect` in `consensus()`, lines 118-120). An inbound message always gets handled once consensus is present. |
| Dispatch.PeerListsAreAdded | network/src/lib.rs:265-267 | Every address of a `Peers` message except the node's own becomes known, and the node's own standing is unchanged. |

## Left out

- The Noise handshake is reduced to its outcome (`HandshakeOutcome`): completed, aborted with a failure, join failure or timeout. Key exchange, the version check, the switch to transport mode and the bytes on the wire are not modelled.
- The timeout lengths (`HANDSHAKE_*_TIMEOUT_SECS`) are not modelled; a timeout is just one of the outcomes. A handshake that times out but keeps running in the background is also not modelled.
- tokio tasks, channels, locks and atomics are left out. Each operation is one atomic step on an immutable node, so interleavings are not modelled. `Peers.NodeSetConnected` can still fail on a listener that is already connected. The `PeerIsDisconnected` race is unreachable without concurrency and is not modelled.
- Task handles are plain numbers. Aborting and awaiting them is described by `PeerInfos.ShutdownOrder` and is not executed.
- Metrics counters and logging are not modelled; they do not affect behaviour.
- The floating-point topology measures (density, eigenvector centrality, Fiedler value) are left out because they use floating point. The remaining crawler code, `rpc_impl.rs` and the fuzz target are not part of this model.
- bincode serialisation of the saved peer book is not modelled. `PeerBooks.Save` and `PeerBooks.Restore` model the conversion to and from the serialised list, and storage is not modelled.
- PeerBookProperties.RestoreKeepsEveryRemotePeer: holds for the in-memory conversion only. `PeerInfo` skips `quality` and `tasks` when serialised (peer_info.rs:94-101), so a book loaded from storage (peers.rs:470) starts every record with default quality and no tasks. `PeerBookProperties.RestoreAfterSave` is likewise about the in-memory round trip.
- Topology.DegreeCentralityDelta: requires a non-empty node list. The source panics on an empty list (`min().unwrap()`, topology.rs:280), and that panic is not modelled.
- Randomness is modelled as nondeterministic choice (`:|`): `choose_multiple` and the iteration order of hash maps.
- Wall-clock time is modelled as a natural number of milliseconds, passed as a parameter. `MAX_PEER_INACTIVITY_SECS` is not defined in the modelled files, so it is the parameter `maxInactivitySecs`.
- PeerInfos.SetConnected: the `u64` connection count is not wrapped, because reaching 2^64 connections is out of reach.
- The consensus layer is modelled only by what dispatch reads from it: the current height, whether it is syncing, and whether it wants to sync. Every call into it becomes an `Effect`. Its own errors are one optional error in the context.
- `update_last_seen` and `is_syncing_blocks` belong to the version of `PeerBook` that `lib.rs` is written against, not to the modelled `peer_book.rs`. They are an effect and a set of addresses.
- Topology.TotalConnectionCount and the ping's height comparison follow a release build, where `u16`/`u32` arithmetic wraps. A debug build would panic instead.
- In `lib.rs`, `process_inbound_peers` takes no source, and `disconnect_from_peer` and `set_connected` return `Result`. Those signatures come from a different version of `peers.rs`. Dispatch uses the `peers.rs` versions modelled here, and a `Peers` message does not update the crawler topology.
- Dispatch.Route: a `ConnectedTo` control message books the connection but opens no channel, as in the source. So dispatch guarantees only the book invariant, not the node invariant.
- `MAX_BLOCK_SYNC_COUNT` is declared but no modelled code uses it. It is kept as a constant.
- The peer crawler commented out in `peers.rs` is not modelled.
- Peers.UpdatePeers returns the bootnode and peer dials it would spawn instead of performing them. `Peers.Dial` models one such dial.

## Findings

| source | as written | input that shows it | evidently intended | confidence | as-written member | corrected member |
|---|---|---|---|---|---|---|
| network/src/peers/peers.rs:398-411 | When dialling a known peer fails with `SelfConnectAttempt`, the error counts as "no need to disconnect". The handshake raises this error (lines 217-219) only after `set_connecting` (line 177), so the address stays in `connecting` for good. | A node at 10.0.0.1:4130 with an empty book and room for peers dials 10.0.0.2:4130, and the handshake reports the node's own identity: the address is never removed from `connecting`. | The same cleanup as a failed bootnode dial (lines 298-311): disconnect the address and mark it unroutable. | medium; not executed | Peers.DialAsWrittenLeaksSelfConnect | Peers.DialLeavesNoPendingHandshake |

=== FILE: addresses.dfy ===
/**
  Socket addresses as the crate uses them: `std::net::SocketAddr`, with the two IP
  predicates the peer logic consults (`is_loopback`, `is_unspecified`) and the
  total order `SocketAddr` derives, which the crawler's connection hash relies on.
 */
module Addresses {
  import opened Base

  /** An IP address; the payload is the address read as one big-endian number. */
  datatype IpAddr = Ipv4(v4: u32) | Ipv6(v6: u128)

  /** `SocketAddr::V4` and `SocketAddr::V6`. */
  datatype SocketAddr =
    | V4(ip4: u32, port4: u16)
    | V6(ip6: u128, port6: u16, flowinfo: u32, scopeId: u32)
  {
    function Ip(): IpAddr {
      match this
      case V4(i, _) => Ipv4(i)
      case V6(i, _, _, _) => Ipv6(i)
    }

    function Port(): u16 {
      match this
      case V4(_, p) => p
      case V6(_, p, _, _) => p
    }
  }

  /** `127.0.0.0/8` for IPv4, `::1` for IPv6. */
  predicate IsLoopback(ip: IpAddr) {
    match ip
    case Ipv4(b) => b / 0x100_0000 == 127
    case Ipv6(b) => b == 1
  }

  /** `0.0.0.0` for IPv4, `::` for IPv6. */
  predicate IsUnspecified(ip: IpAddr) {
    match ip
    case Ipv4(b) => b == 0
    case Ipv6(b) => b == 0
  }

  /** The derived order on `SocketAddr`: every V4 address precedes every V6 address,
      and within a family the fields compare lexicographically. */
  function Cmp(x: SocketAddr, y: SocketAddr): Ordering {
    match (x, y)
    case (V4(i, p), V4(j, q)) => Then(CmpInt(i, j), CmpInt(p, q))
    case (V4(_, _), V6(_, _, _, _)) => Less
    case (V6(_, _, _, _), V4(_, _)) => Greater
    case (V6(i, p, f, s), V6(j, q, g, t)) =>
      Then(CmpInt(i, j), Then(CmpInt(p, q), Then(CmpInt(f, g), CmpInt(s, t))))
  }

  /** The order is antisymmetric: two addresses compare `Equal` exactly when they are equal. */
  lemma CmpEqualIff(x: SocketAddr, y: SocketAddr)
    ensures Cmp(x, y) == Equal <==> x == y
  {
  }

  /** Swapping the operands reverses the comparison. */
  lemma CmpFlip(x: SocketAddr, y: SocketAddr)
    ensures Cmp(y, x) == Cmp(x, y).Reverse()
  {
  }
}

=== FILE: base.dfy ===
/**
  Vocabulary shared by the networking model: optional values, results, the Rust
  fixed-width unsigned integers the crate uses, and three-way comparison.
 */
module Base {

  /** Rust's `Option<T>`. */
  datatype Option<+T> = None | Some(value: T)

  /** Rust's `Result<T, E>`. */
  datatype Result<+T, +E> = Ok(value: T) | Err(error: E)

  const U16_LIMIT: nat := 0x1_0000
  const U32_LIMIT: nat := 0x1_0000_0000
  const U64_LIMIT: nat := 0x1_0000_0000_0000_0000

  type u16 = x: int | 0 <= x < 0x1_0000
  type u32 = x: int | 0 <= x < 0x1_0000_0000
  type u64 = x: int | 0 <= x < 0x1_0000_0000_0000_0000
  type u128 = x: int | 0 <= x < 0x1_0000_0000_0000_0000_0000_0000_0000_0000

  /** `n as u16`: keeps the low sixteen bits, so small values pass through unchanged. */
  function AsU16(n: nat): (r: u16)
    ensures n < U16_LIMIT ==> r == n
    ensures r <= n
  {
    n % U16_LIMIT
  }

  /** `n as u32`: keeps the low thirty-two bits. */
  function AsU32(n: nat): (r: u32)
    ensures n < U32_LIMIT ==> r == n
    ensures r <= n
  {
    n % U32_LIMIT
  }

  /** `n as u64`: keeps the low sixty-four bits. */
  function AsU64(n: nat): (r: u64)
    ensures n < U64_LIMIT ==> r == n
  {
    n % U64_LIMIT
  }

  /** `AtomicU32::fetch_add(1)` stores the successor modulo 2^32. */
  function WrappingIncU32(x: u32): (r: u32)
    ensures x < U32_LIMIT - 1 ==> r == x + 1
    ensures x == U32_LIMIT - 1 ==> r == 0
  {
    (x + 1) % U32_LIMIT
  }

  /** `AtomicU32::fetch_sub(1)` stores the predecessor modulo 2^32. */
  function WrappingDecU32(x: u32): (r: u32)
    ensures x > 0 ==> r == x - 1
    ensures x == 0 ==> r == U32_LIMIT - 1
  {
    (x - 1) % U32_LIMIT
  }

  /** `AtomicU64::fetch_add(1)` stores the successor modulo 2^64. */
  function WrappingIncU64(x: u64): (r: u64)
    ensures x < U64_LIMIT - 1 ==> r == x + 1
    ensures x == U64_LIMIT - 1 ==> r == 0
  {
    (x + 1) % U64_LIMIT
  }

  /** `usize::saturating_sub`: the difference, or zero when it would be negative. */
  function SaturatingSub(x: nat, y: nat): (r: nat)
    ensures x >= y ==> r + y == x
    ensures x <= y ==> r == 0
  {
    if x >= y then x - y else 0
  }

  function Min(x: int, y: int): int { if x <= y then x else y }

  /** `std::cmp::Ordering`. */
  datatype Ordering = Less | Equal | Greater {
    function Reverse(): Ordering {
      match this
      case Less => Greater
      case Equal => Equal
      case Greater => Less
    }
  }

  function CmpInt(x: int, y: int): Ordering {
    if x < y then Less else if x == y then Equal else Greater
  }

  /** `Ordering::then`: the first comparison decides unless it is `Equal`. */
  function Then(first: Ordering, second: Ordering): Ordering {
    if first == Equal then second else first
  }

  /** Rust orders `Option<T>` with `None` below every `Some`. */
  predicate OptionLe(x: Option<nat>, y: Option<nat>) {
    match x
    case None => true
    case Some(a) => y.Some? && a <= y.value
  }

  /** Every element of `s` occurs once. */
  predicate Distinct<T(==)>(s: seq<T>) {
    forall i, j :: 0 <= i < j < |s| ==> s[i] != s[j]
  }
}

=== FILE: dispatch.dfy ===
/**
  The inbound message loop's routing decision: one message taken off the queue is
  filtered (a bootnode answers only `GetPeers` and control messages), its sender's
  last-seen time is refreshed, and its payload decides what happens to the peer
  book and which calls go to the consensus layer or out to peers.

  The consensus layer is not part of this model: the dispatcher sees it through a
  `Consensus` snapshot, and every call into it becomes an `Effect`. The helpers the
  loop calls on the peer book but which are not part of this model
  (`update_last_seen`, `is_syncing_blocks`) become an effect and a set of syncing
  peers respectively.
 */
module Dispatch {
  import opened Base
  import opened Addresses
  import opened Errors
  import opened Messages
  import opened PeerBooks
  import PeerBookProperties
  import opened Peers

  /** The consensus layer as the dispatcher reads it. */
  datatype Consensus = Consensus(currentBlockHeight: u32, isSyncingBlocks: bool, shouldSyncBlocks: bool)

  /** Everything besides the node that the routing decision depends on. */
  datatype Context = Context(
    isBootnode: bool,
    consensus: Option<Consensus>,      // absent on nodes without a sync layer
    syncingPeers: set<SocketAddr>,     // the peers `is_syncing_blocks` holds for
    consensusError: Option<NetworkError>)  // what a fallible consensus call returns, if it fails

  /** A call the dispatcher makes outside the peer book, in the order made.
      `SharePeers(a)` is `send_peers` for the requester `a`; the message it sends is
      the one the method `Peers.SendPeers(node, a)` chooses. */
  datatype Effect =
    | UpdateLastSeen(peer: SocketAddr)
    | Send(message: Message)
    | SharePeers(requester: SocketAddr)
    | ReceivedTransaction(source: SocketAddr, transaction: Bytes)
    | ReceivedBlock(source: SocketAddr, block: Bytes, relay: bool)
    | ReceivedGetBlocks(source: SocketAddr, hashes: seq<BlockHash>)
    | ReceivedGetMemoryPool(source: SocketAddr)
    | ReceivedMemoryPool(transactions: seq<Bytes>)
    | ReceivedGetSync(source: SocketAddr, locator: seq<BlockHash>)
    | ReceivedSync(source: SocketAddr, blockHashes: seq<BlockHash>)
    | RegisterBlockSyncAttempt
    | UpdateBlocks(peer: SocketAddr)
    | FinishedSyncingBlocks

  /** How handling one message ended: normally, with the node afterwards, the calls
      made and the loop's result; or in a panic (a payload that needs a sender came
      without one, or consensus was needed but absent), with the node as it was
      when the panic struck. */
  datatype Step =
    | Handled(node: Node, effects: seq<Effect>, result: Result<(), NetworkError>)
    | Panicked(atPanic: Node)

  function Prepend(effects: seq<Effect>, s: Step): Step {
    match s
    case Handled(n, e, r) => Handled(n, effects + e, r)
    case Panicked(n) => s
  }

  /** The result of a fallible consensus call. */
  function ConsensusResult(ctx: Context): Result<(), NetworkError> {
    match ctx.consensusError
    case None => Ok(())
    case Some(e) => Err(e)
  }

  /** Whether a ping announcing `height` starts a block sync with its sender: the
      height is more than one block ahead of ours (the sum wraps like the `u32` it
      is), consensus wants to sync, and the sender is not already syncing with us. */
  function StartsSync(c: Consensus, height: u32, source: SocketAddr, syncingPeers: set<SocketAddr>): (r: bool)
    ensures r ==> c.shouldSyncBlocks && source !in syncingPeers
    ensures c.currentBlockHeight < U32_LIMIT - 1 ==>
      (r <==> height > c.currentBlockHeight + 1 && c.shouldSyncBlocks && source !in syncingPeers)
    ensures c.currentBlockHeight == U32_LIMIT - 1 ==>
      (r <==> height > 0 && c.shouldSyncBlocks && source !in syncingPeers)
  {
    height > WrappingIncU32(c.currentBlockHeight) && c.shouldSyncBlocks && source !in syncingPeers
  }

  /** The bootnode filter: a bootnode handles only `GetPeers` and internal messages. */
  function Filtered(isBootnode: bool, msg: Message): (r: bool)
    ensures !isBootnode ==> !r
    ensures msg.direction == Internal ==> !r
    ensures isBootnode && msg.direction != Internal ==> (r <==> msg.payload != GetPeers)
  {
    isBootnode && !(msg.payload == GetPeers || msg.direction == Internal)
  }

  /** `process_incoming_messages` for one message (`None`: the queue failed). */
  function ProcessIncoming(node: Node, ctx: Context, received: Option<Message>, now: Time): (r: Step)
    requires Valid(node.book)
    ensures r.Handled? ==> Valid(r.node.book)
    ensures r.Handled? ==> r.node.own == node.own && r.node.config == node.config
    ensures received.None? ==> r == Handled(node, [], Err(ReceiverFailedToParse))
    ensures received.Some? && Filtered(ctx.isBootnode, received.value) ==> r == Handled(node, [], Ok(()))
  {
    match received
    case None => Handled(node, [], Err(ReceiverFailedToParse))
    case Some(msg) =>
      if Filtered(ctx.isBootnode, msg) then Handled(node, [], Ok(()))
      else
        match msg.direction
        case Inbound(from) => Prepend([UpdateLastSeen(from)], Route(node, ctx, msg.direction, Some(from), msg.payload, now))
        case _ => Route(node, ctx, msg.direction, None, msg.payload, now)
  }

  /** The match over the payload, once the sender (if any) is known. */
  function Route(node: Node, ctx: Context, direction: Direction, source: Option<SocketAddr>,
                 payload: Payload, now: Time): (r: Step)
    requires Valid(node.book)
    ensures r.Handled? ==> Valid(r.node.book)
    ensures r.Handled? ==> r.node.own == node.own && r.node.config == node.config
  {
    var b := node.book;
    match payload
    case ConnectingTo(remote) =>
      if direction != Internal then Handled(node, [], Ok(()))
      else
        PeerBookProperties.SetConnectingPreservesValid(b, remote);
        (match SetConnecting(b, remote)
         case Ok(b') => Handled(node.(book := b'), [], Ok(()))
         case Err(e) => Handled(node, [], Err(e)))
    case ConnectedTo(remote, listener) =>
      if direction != Internal then Handled(node, [], Ok(()))
      else
        PeerBookProperties.SetConnectedPreservesValid(b, remote, listener, now);
        Handled(node.(book := SetConnected(b, remote, listener, now)), [], Ok(()))
    case Transaction(tx) =>
      if ctx.consensus.None? || source.None? then Panicked(node)
      else Handled(node, [ReceivedTransaction(source.value, tx)], ConsensusResult(ctx))
    case Block(block) =>
      if ctx.consensus.None? || source.None? then Panicked(node)
      else Handled(node, [ReceivedBlock(source.value, block, true)], ConsensusResult(ctx))
    case SyncBlock(block) =>
      if ctx.consensus.None? || source.None? then Panicked(node)
      else if ctx.consensusError.Some? then
        Handled(node, [ReceivedBlock(source.value, block, false)], ConsensusResult(ctx))
      else
        PeerBookProperties.QualityUpdatesPreserveValid(b, source.value, now, 0, 0);
        var (finished, b') := GotSyncBlock(b, source.value);
        Handled(node.(book := b'),
                [ReceivedBlock(source.value, block, false)] + (if finished then [FinishedSyncingBlocks] else []),
                Ok(()))
    case GetBlocks(hashes) =>
      if ctx.consensus.None? then Panicked(node)
      else if ctx.consensus.value.isSyncingBlocks then Handled(node, [], Ok(()))
      else if source.None? then Panicked(node)
      else Handled(node, [ReceivedGetBlocks(source.value, hashes)], ConsensusResult(ctx))
    case GetMemoryPool =>
      if ctx.consensus.None? then Panicked(node)
      else if ctx.consensus.value.isSyncingBlocks then Handled(node, [], Ok(()))
      else if source.None? then Panicked(node)
      else Handled(node, [ReceivedGetMemoryPool(source.value)], ConsensusResult(ctx))
    case MemoryPool(txs) =>
      if ctx.consensus.None? then Panicked(node)
      else Handled(node, [ReceivedMemoryPool(txs)], ConsensusResult(ctx))
    case GetSync(locator) =>
      if ctx.consensus.None? then Panicked(node)
      else if ctx.consensus.value.isSyncingBlocks then Handled(node, [], Ok(()))
      else if source.None? then Panicked(node)
      else Handled(node, [ReceivedGetSync(source.value, locator)], ConsensusResult(ctx))
    case Sync(hashes) =>
      if source.None? then Panicked(node)
      else
        PeerBookProperties.QualityUpdatesPreserveValid(b, source.value, now, 0, |hashes|);
        var armed := node.(book := ExpectingSyncBlocks(b, source.value, |hashes|).1);
        if ctx.consensus.None? then Panicked(armed)
        else Handled(armed, [ReceivedSync(source.value, hashes)], Ok(()))
    case Disconnect(addr) =>
      if direction != Internal then Handled(node, [], Ok(()))
      else
        PeerBookProperties.SetDisconnectedPreservesValid(b, addr, now);
        Handled(DisconnectFromPeer(node, addr, now), [], Ok(()))
    case GetPeers =>
      if source.None? then Panicked(node)
      else Handled(node, [SharePeers(source.value)], Ok(()))
    case Peers(peers) =>
      AddPeersPreservesValid(b, peers, node.own);
      Handled(node.(book := AddPeers(b, peers, node.own)), [], Ok(()))
    case Ping(height) =>
      if source.None? then Panicked(node)
      else
        var pong := Send(Message(Outbound(source.value), Pong));
        (match ctx.consensus
         case None => Handled(node, [pong], Ok(()))
         case Some(c) =>
           if StartsSync(c, height, source.value, ctx.syncingPeers) then
             Handled(node, [pong, RegisterBlockSyncAttempt, UpdateBlocks(source.value)], Ok(()))
           else Handled(node, [pong, FinishedSyncingBlocks], Ok(())))
    case Pong =>
      if source.None? then Panicked(node)
      else
        PeerBookProperties.QualityUpdatesPreserveValid(b, source.value, now, 0, 0);
        Handled(node.(book := ReceivedPong(b, source.value, now)), [], Ok(()))
    case Unknown => Handled(node, [], Ok(()))
  }

  // ---------------------------------------------------------------------------
  // Properties of the routing decision
  // ---------------------------------------------------------------------------

  /** A bootnode drops everything except `GetPeers` and internal messages untouched,
      and answers an inbound `GetPeers` by sharing peers with its sender. */
  lemma BootnodeAnswersOnlyGetPeers(node: Node, ctx: Context, msg: Message, now: Time)
    requires Valid(node.book) && ctx.isBootnode
    ensures msg.payload != GetPeers && msg.direction != Internal ==>
      ProcessIncoming(node, ctx, Some(msg), now) == Handled(node, [], Ok(()))
    ensures msg.payload == GetPeers && msg.direction.Inbound? ==>
      ProcessIncoming(node, ctx, Some(msg), now)
        == Handled(node, [UpdateLastSeen(msg.direction.from), SharePeers(msg.direction.from)], Ok(()))
  {
  }

  /** `ConnectingTo`, `ConnectedTo` and `Disconnect` from a peer change nothing; only
      the node's own internal messages act on them. */
  lemma ControlMessagesNeedInternal(node: Node, ctx: Context, msg: Message, now: Time)
    requires Valid(node.book)
    requires msg.payload.ConnectingTo? || msg.payload.ConnectedTo? || msg.payload.Disconnect?
    ensures var r := ProcessIncoming(node, ctx, Some(msg), now);
      msg.direction != Internal ==> r.Handled? && r.node == node && r.result == Ok(())
    ensures var r := ProcessIncoming(node, ctx, Some(msg), now);
      msg.direction == Internal ==>
        (&& r.Handled? && r.effects == []
         && r == match msg.payload
                 case ConnectingTo(a) =>
                   (match SetConnecting(node.book, a)
                    case Ok(b') => Handled(node.(book := b'), [], Ok(()))
                    case Err(e) => Handled(node, [], Err(e)))
                 case ConnectedTo(a, l) => Handled(node.(book := SetConnected(node.book, a, l, now)), [], Ok(()))
                 case Disconnect(a) => Handled(DisconnectFromPeer(node, a, now), [], Ok(())))
  {
  }

  /** Every ping that gets past the filter is answered with a pong to its sender, right
      after the sender's last-seen time is refreshed; the book is not touched. */
  lemma PingIsAnsweredWithPong(node: Node, ctx: Context, source: SocketAddr, height: u32, now: Time)
    requires Valid(node.book) && !ctx.isBootnode
    ensures var r := ProcessIncoming(node, ctx, Some(Message(Inbound(source), Ping(height))), now);
      && r.Handled? && r.node == node && r.result == Ok(())
      && |r.effects| >= 2
      && r.effects[0] == UpdateLastSeen(source)
      && r.effects[1] == Send(Message(Outbound(source), Pong))
  {
  }

  /** With consensus present, a ping starts a block sync with its sender exactly when
      `StartsSync` holds; otherwise it reports block syncing as finished. Without
      consensus it does neither. */
  lemma PingStartsSyncIff(node: Node, ctx: Context, source: SocketAddr, height: u32, now: Time)
    requires Valid(node.book) && !ctx.isBootnode
    ensures var r := ProcessIncoming(node, ctx, Some(Message(Inbound(source), Ping(height))), now);
      && (ctx.consensus.Some? ==>
            (UpdateBlocks(source) in r.effects <==> StartsSync(ctx.consensus.value, height, source, ctx.syncingPeers))
            && (RegisterBlockSyncAttempt in r.effects <==> StartsSync(ctx.consensus.value, height, source, ctx.syncingPeers))
            && (FinishedSyncingBlocks in r.effects <==> !StartsSync(ctx.consensus.value, height, source, ctx.syncingPeers)))
      && (ctx.consensus.None? ==> r.effects == [UpdateLastSeen(source), Send(Message(Outbound(source), Pong))])
  {
    var r := ProcessIncoming(node, ctx, Some(Message(Inbound(source), Ping(height))), now);
    var pong := Send(Message(Outbound(source), Pong));
    if ctx.consensus.Some? {
      if StartsSync(ctx.consensus.value, height, source, ctx.syncingPeers) {
        assert r.effects == [UpdateLastSeen(source), pong, RegisterBlockSyncAttempt, UpdateBlocks(source)];
      } else {
        assert r.effects == [UpdateLastSeen(source), pong, FinishedSyncingBlocks];
      }
    }
  }

  /** A `Sync` announcement from a connected peer arms its countdown with the number of
      announced hashes (as a `u32`), and hands the hashes to consensus. */
  lemma SyncArmsCountdown(node: Node, ctx: Context, source: SocketAddr, hashes: seq<BlockHash>, now: Time)
    requires Valid(node.book) && !ctx.isBootnode && ctx.consensus.Some?
    requires IsConnected(node.book, source)
    ensures var r := ProcessIncoming(node, ctx, Some(Message(Inbound(source), Sync(hashes))), now);
      && r.Handled? && r.result == Ok(())
      && r.node.book.connected[source].quality.remainingSyncBlocks == AsU32(|hashes|)
      && r.effects == [UpdateLastSeen(source), ReceivedSync(source, hashes)]
  {
  }

  /** A sync block reports block syncing finished exactly when consensus took the block
      and it was the last one the sender owed. */
  lemma SyncBlockFinishesIff(node: Node, ctx: Context, source: SocketAddr, block: Bytes, now: Time)
    requires Valid(node.book) && !ctx.isBootnode && ctx.consensus.Some?
    ensures var r := ProcessIncoming(node, ctx, Some(Message(Inbound(source), SyncBlock(block))), now);
      && r.Handled?
      && (FinishedSyncingBlocks in r.effects <==> ctx.consensusError.None? && GotSyncBlock(node.book, source).0)
      && (ctx.consensusError.None? ==> r.node.book == GotSyncBlock(node.book, source).1)
      && (ctx.consensusError.Some? ==> r.node == node && r.result.Err?)
  {
    var r := ProcessIncoming(node, ctx, Some(Message(Inbound(source), SyncBlock(block))), now);
    if ctx.consensusError.None? {
      if GotSyncBlock(node.book, source).0 {
        assert r.effects == [UpdateLastSeen(source), ReceivedBlock(source, block, false), FinishedSyncingBlocks];
      } else {
        assert r.effects == [UpdateLastSeen(source), ReceivedBlock(source, block, false)];
      }
    } else {
      assert r.effects == [UpdateLastSeen(source), ReceivedBlock(source, block, false)];
    }
  }

  /** A whole sync batch: after `Sync` with `n` hashes from a connected peer, the `n`
      sync blocks that follow report syncing finished on the last one and only there. */
  lemma SyncBatchEndsOnLastBlock(node: Node, ctx: Context, source: SocketAddr, hashes: seq<BlockHash>, now: Time)
    requires Valid(node.book) && !ctx.isBootnode && ctx.consensus.Some?
    requires IsConnected(node.book, source)
    requires 0 < |hashes| < U32_LIMIT
    ensures var r := ProcessIncoming(node, ctx, Some(Message(Inbound(source), Sync(hashes))), now);
      PeerBookProperties.CountDown(r.node.book, source, |hashes|) == seq(|hashes|, i => i == |hashes| - 1)
  {
    var r := ProcessIncoming(node, ctx, Some(Message(Inbound(source), Sync(hashes))), now);
    PeerBookProperties.SyncBatchFinishesOnLastBlock(node.book, source, |hashes|);
    assert r.node.book == ExpectingSyncBlocks(node.book, source, |hashes|).1;
  }

  /** Block, memory-pool and sync requests reach consensus only while it is not syncing
      blocks itself, each as the matching call for its sender; while it is syncing,
      they are dropped without a trace. */
  lemma RequestsServedOnlyWhenNotSyncing(node: Node, ctx: Context, source: SocketAddr, payload: Payload, now: Time)
    requires Valid(node.book) && !ctx.isBootnode && ctx.consensus.Some?
    requires payload.GetBlocks? || payload.GetMemoryPool? || payload.GetSync?
    ensures var r := ProcessIncoming(node, ctx, Some(Message(Inbound(source), payload)), now);
      && r.Handled? && r.node == node
      && (ctx.consensus.value.isSyncingBlocks ==> r.effects == [UpdateLastSeen(source)] && r.result == Ok(()))
      && (!ctx.consensus.value.isSyncingBlocks ==>
            && r.result == ConsensusResult(ctx)
            && r.effects == [UpdateLastSeen(source),
                             match payload
                             case GetBlocks(hashes) => ReceivedGetBlocks(source, hashes)
                             case GetSync(locator) => ReceivedGetSync(source, locator)
                             case _ => ReceivedGetMemoryPool(source)])
  {
  }

  /** Transactions, blocks and memory pools from a peer go to consensus as the matching
      call, with the sender where the call takes one; the book is left alone and the
      loop reports what consensus returned. */
  lemma ConsensusPayloadsPassedOn(node: Node, ctx: Context, source: SocketAddr, payload: Payload, now: Time)
    requires Valid(node.book) && !ctx.isBootnode && ctx.consensus.Some?
    requires payload.Transaction? || payload.Block? || payload.MemoryPool?
    ensures var r := ProcessIncoming(node, ctx, Some(Message(Inbound(source), payload)), now);
      && r.Handled? && r.node == node && r.result == ConsensusResult(ctx)
      && r.effects == [UpdateLastSeen(source),
                       match payload
                       case Transaction(tx) => ReceivedTransaction(source, tx)
                       case Block(block) => ReceivedBlock(source, block, true)
                       case _ => ReceivedMemoryPool(payload.transactions)]
  {
  }

  /** A pong from a peer goes to `received_pong` for that peer, and nothing else changes. */
  lemma PongUpdatesSenderRecord(node: Node, ctx: Context, source: SocketAddr, now: Time)
    requires Valid(node.book) && !ctx.isBootnode
    ensures var r := ProcessIncoming(node, ctx, Some(Message(Inbound(source), Pong)), now);
      && r.Handled? && r.result == Ok(()) && r.effects == [UpdateLastSeen(source)]
      && r.node == node.(book := ReceivedPong(node.book, source, now))
  {
  }

  /** The loop panics only on a payload that needs a sender and came without one, or
      that needs consensus on a node without it. */
  lemma PanicsOnlyWithoutSenderOrConsensus(node: Node, ctx: Context, msg: Message, now: Time)
    requires Valid(node.book)
    ensures ProcessIncoming(node, ctx, Some(msg), now).Panicked? ==>
      !msg.direction.Inbound? || ctx.consensus.None?
    ensures msg.direction.Inbound? && ctx.consensus.Some? ==> ProcessIncoming(node, ctx, Some(msg), now).Handled?
  {
  }

  /** A peer list is added to the book, minus the node's own address, whoever sends it. */
  lemma PeerListsAreAdded(node: Node, ctx: Context, msg: Message, now: Time)
    requires Valid(node.book) && msg.payload.Peers? && !Filtered(ctx.isBootnode, msg)
    ensures var r := ProcessIncoming(node, ctx, Some(msg), now);
      && r.Handled? && r.result == Ok(())
      && (forall a :: a in msg.payload.addresses && a != node.own ==> Known(r.node.book, a))
      && Standing(r.node.book, node.own) == Standing(node.book, node.own)
  {
    AddPeersEffect(node.book, msg.payload.addresses, node.own);
  }
}

=== FILE: errors.dfy ===
/**
  The `NetworkError` variants the peer logic returns. The crate's error module is not
  part of this model; only the variants the modelled code produces or matches on are
  named, and every other failure of the transport or the handshake is `Other`.
 */
module Errors {

  datatype NetworkError =
    | PeerAlreadyConnected
    | PeerAlreadyConnecting
    | PeerIsDisconnected
    | TooManyConnections
    | SelfConnectAttempt
    | InvalidHandshake
    | HandshakeTimeout
    | ReceiverFailedToParse
    | Other(code: nat)
}

=== FILE: messages.dfy ===
/**
  The closed message catalogue the node routes: a direction (who sent it, or that
  it is a control message the node posted to itself) and a payload. Block and
  transaction contents are opaque bytes.
 */
module Messages {
  import opened Base
  import opened Addresses

  type Bytes = seq<bv8>
  type BlockHash = seq<bv8>

  /** `Direction`: received from a peer, to be sent to a peer, or internal. */
  datatype Direction = Inbound(from: SocketAddr) | Outbound(to: SocketAddr) | Internal

  /** `Payload`. */
  datatype Payload =
    | Block(block: Bytes)
    | ConnectedTo(remote: SocketAddr, listener: Option<SocketAddr>)
    | ConnectingTo(target: SocketAddr)
    | Disconnect(peer: SocketAddr)
    | GetBlocks(hashes: seq<BlockHash>)
    | GetMemoryPool
    | GetPeers
    | GetSync(locator: seq<BlockHash>)
    | MemoryPool(transactions: seq<Bytes>)
    | Peers(addresses: seq<SocketAddr>)
    | Ping(blockHeight: u32)
    | Pong
    | Sync(blockHashes: seq<BlockHash>)
    | SyncBlock(syncBlock: Bytes)
    | Transaction(transaction: Bytes)
    | Unknown

  datatype Message = Message(direction: Direction, payload: Payload)

  /** The largest number of block hashes requested or announced in one batch. */
  const MAX_BLOCK_SYNC_COUNT: u32 := 250

  /** The largest number of peer addresses shared in answer to one `GetPeers`. */
  const SHARED_PEER_COUNT: nat := 25
}

=== FILE: peer_book.dfy ===
/**
  The peer book: every address the node knows about lives in up to three
  collections — the addresses being handshaken with (`connecting`), the connected
  peers and the disconnected (known but idle) peers, the last two mapping an
  address to its `PeerInfo`.

  Each `PeerBook` method becomes a pure function from the old book to the new one
  (together with the method's return value). The quality counters of a peer are
  shared between the book and every snapshot of it, so an update through a snapshot
  is modelled as an update of the book's own entry.
 */
module PeerBooks {
  import opened Base
  import opened Addresses
  import opened Errors
  import PeerInfos

  type PeerInfo = PeerInfos.PeerInfo
  type PeerQuality = PeerInfos.PeerQuality
  type Time = PeerInfos.Time

  datatype PeerBook = PeerBook(
    connecting: set<SocketAddr>,
    connected: map<SocketAddr, PeerInfo>,
    disconnected: map<SocketAddr, PeerInfo>)

  /** `PeerBook::default()`. */
  function Empty(): PeerBook {
    PeerBook({}, map[], map[])
  }

  // ---------------------------------------------------------------------------
  // Invariants
  // ---------------------------------------------------------------------------

  /** No address is both connected and disconnected. */
  predicate NoOverlap(b: PeerBook) {
    b.connected.Keys !! b.disconnected.Keys
  }

  /** Every record is filed under its own address. */
  predicate KeysMatch(b: PeerBook) {
    && (forall a :: a in b.connected ==> b.connected[a].address == a)
    && (forall a :: a in b.disconnected ==> b.disconnected[a].address == a)
  }

  /** No record expects a pong without having sent a ping. */
  predicate PingsConsistent(b: PeerBook) {
    && (forall a :: a in b.connected ==> PeerInfos.PingConsistent(b.connected[a].quality))
    && (forall a :: a in b.disconnected ==> PeerInfos.PingConsistent(b.disconnected[a].quality))
  }

  predicate Valid(b: PeerBook) {
    NoOverlap(b) && KeysMatch(b) && PingsConsistent(b)
  }

  // ---------------------------------------------------------------------------
  // Queries
  // ---------------------------------------------------------------------------

  predicate IsConnecting(b: PeerBook, a: SocketAddr) { a in b.connecting }
  predicate IsConnected(b: PeerBook, a: SocketAddr) { a in b.connected }
  predicate IsDisconnected(b: PeerBook, a: SocketAddr) { a in b.disconnected }

  /** The address appears in at least one of the three collections. */
  predicate Known(b: PeerBook, a: SocketAddr) {
    IsConnecting(b, a) || IsConnected(b, a) || IsDisconnected(b, a)
  }

  /** `number_of_connecting_peers`: the set's size, cast to `u16`; exact below 2^16,
      and a full 2^16 reads as zero. */
  function NumberOfConnecting(b: PeerBook): (r: u16)
    ensures |b.connecting| < U16_LIMIT ==> r == |b.connecting|
    ensures r <= |b.connecting|
    ensures |b.connecting| == U16_LIMIT ==> r == 0
  {
    AsU16(|b.connecting|)
  }

  /** `number_of_connected_peers`: the map's size, cast to `u16`; exact below 2^16,
      and a full 2^16 reads as zero. */
  function NumberOfConnected(b: PeerBook): (r: u16)
    ensures |b.connected| < U16_LIMIT ==> r == |b.connected|
    ensures r <= |b.connected|
    ensures |b.connected| == U16_LIMIT ==> r == 0
  {
    AsU16(|b.connected|)
  }

  /** `number_of_disconnected_peers`: the map's size, cast to `u16`. */
  function NumberOfDisconnected(b: PeerBook): u16 { AsU16(|b.disconnected|) }

  /** `get_peer`: a connected peer's record, or — unless only connected peers are
      asked for — a disconnected peer's record. */
  function GetPeer(b: PeerBook, a: SocketAddr, onlyIfConnected: bool): (r: Option<PeerInfo>)
    ensures r.Some? <==> IsConnected(b, a) || (!onlyIfConnected && IsDisconnected(b, a))
    ensures IsConnected(b, a) ==> r == Some(b.connected[a])
    ensures !IsConnected(b, a) && r.Some? ==> r == Some(b.disconnected[a])
  {
    if a in b.connected then Some(b.connected[a])
    else if !onlyIfConnected && a in b.disconnected then Some(b.disconnected[a])
    else None
  }

  // ---------------------------------------------------------------------------
  // Lifecycle transitions
  // ---------------------------------------------------------------------------

  /** `set_connecting`: refused for a connected address; otherwise the address joins
      `connecting` and both maps are untouched. */
  function SetConnecting(b: PeerBook, a: SocketAddr): (r: Result<PeerBook, NetworkError>)
    ensures r.Err? <==> IsConnected(b, a)
    ensures r.Err? ==> r.error == PeerAlreadyConnected
    ensures r.Ok? ==> r.value.connecting == b.connecting + {a}
    ensures r.Ok? ==> r.value.connected == b.connected && r.value.disconnected == b.disconnected
  {
    if a in b.connected then Err(PeerAlreadyConnected)
    else Ok(b.(connecting := b.connecting + {a}))
  }

  /** The key a connection is filed under: the announced listener address when there
      is one, the remote address otherwise. */
  function ListenerKey(address: SocketAddr, listener: Option<SocketAddr>): SocketAddr {
    match listener
    case Some(l) => l
    case None => address
  }

  /** `set_connected(address, listener)`: the record of the listener key is taken
      from `disconnected` when the peer is known (a fresh record otherwise), marked
      connected and filed in `connected`; `address` leaves `connecting`. */
  function SetConnected(b: PeerBook, address: SocketAddr, listener: Option<SocketAddr>, now: Time): (r: PeerBook)
    ensures var key := ListenerKey(address, listener);
      && r.connected.Keys == b.connected.Keys + {key}
      && r.disconnected == b.disconnected - {key}
      && r.connecting == b.connecting - {address}
      && r.connected[key] == PeerInfos.SetConnected(
           if key in b.disconnected then b.disconnected[key] else PeerInfos.New(key), now)
      && (forall k :: k in b.connected && k != key ==> r.connected[k] == b.connected[k])
  {
    var key := ListenerKey(address, listener);
    var info := if key in b.disconnected then b.disconnected[key] else PeerInfos.New(key);
    PeerBook(
      b.connecting - {address},
      b.connected[key := PeerInfos.SetConnected(info, now)],
      b.disconnected - {key})
  }

  /** `set_disconnected`: a connecting address only leaves `connecting` (and the call
      reports `false`); otherwise a connected peer's record moves to `disconnected`
      (reported `true`); an unknown address changes nothing. */
  function SetDisconnected(b: PeerBook, a: SocketAddr, now: Time): (r: (bool, PeerBook))
    ensures r.0 <==> !IsConnecting(b, a) && IsConnected(b, a)
    ensures IsConnecting(b, a) ==> r.1 == b.(connecting := b.connecting - {a})
    ensures r.0 ==> && r.1.connecting == b.connecting
                    && r.1.connected == b.connected - {a}
                    && r.1.disconnected == b.disconnected[a := PeerInfos.SetDisconnected(b.connected[a], now)]
    ensures !IsConnecting(b, a) && !IsConnected(b, a) ==> r.1 == b
    ensures b.disconnected.Keys <= r.1.disconnected.Keys
  {
    if a in b.connecting then (false, b.(connecting := b.connecting - {a}))
    else if a in b.connected then
      (true, PeerBook(
        b.connecting,
        b.connected - {a},
        b.disconnected[a := PeerInfos.SetDisconnected(b.connected[a], now)]))
    else (false, b)
  }

  /** `set_unroutable`: only a disconnected peer's record is marked unroutable. */
  function SetUnroutable(b: PeerBook, a: SocketAddr): (r: PeerBook)
    ensures r.connecting == b.connecting && r.connected == b.connected
    ensures r.disconnected.Keys == b.disconnected.Keys
    ensures a in b.disconnected ==> r.disconnected[a] == b.disconnected[a].(isRoutable := false)
    ensures forall k :: k in b.disconnected && k != a ==> r.disconnected[k] == b.disconnected[k]
  {
    if a in b.disconnected then b.(disconnected := b.disconnected[a := b.disconnected[a].(isRoutable := false)])
    else b
  }

  /** `add_peer`: a known address is left alone; a new one gets a fresh record in
      `disconnected` and nowhere else. */
  function AddPeer(b: PeerBook, a: SocketAddr): (r: PeerBook)
    ensures Known(b, a) ==> r == b
    ensures !Known(b, a) ==> && r.connecting == b.connecting && r.connected == b.connected
                             && r.disconnected == b.disconnected[a := PeerInfos.New(a)]
    ensures IsDisconnected(r, a) || IsConnected(r, a) || IsConnecting(r, a)
  {
    if a in b.connected || a in b.disconnected || a in b.connecting then b
    else b.(disconnected := b.disconnected[a := PeerInfos.New(a)])
  }

  /** `remove_peer`: disconnect, then forget the disconnected record. */
  function RemovePeer(b: PeerBook, a: SocketAddr, now: Time): (r: PeerBook)
    ensures !IsDisconnected(r, a) && !IsConnecting(r, a)
    ensures IsConnected(b, a) && !IsConnecting(b, a) ==> !IsConnected(r, a)
    ensures IsConnecting(b, a) ==> r.connected == b.connected
    ensures r.connecting == b.connecting - {a}
    ensures forall k :: k != a ==> (k in r.connected <==> k in b.connected) && (k in r.disconnected <==> k in b.disconnected)
    ensures r.disconnected == b.disconnected - {a}
    ensures r.connected == (if a in b.connecting then b.connected else b.connected - {a})
  {
    var b' := SetDisconnected(b, a, now).1;
    b'.(disconnected := b'.disconnected - {a})
  }

  // ---------------------------------------------------------------------------
  // Quality bookkeeping of connected peers
  // ---------------------------------------------------------------------------

  /** Replaces the quality counters of a connected peer. */
  function WithQuality(b: PeerBook, a: SocketAddr, q: PeerQuality): (r: PeerBook)
    requires a in b.connected
    ensures r.connecting == b.connecting && r.disconnected == b.disconnected
    ensures r.connected.Keys == b.connected.Keys
    ensures r.connected[a] == b.connected[a].(quality := q)
    ensures forall k :: k in b.connected && k != a ==> r.connected[k] == b.connected[k]
  {
    b.(connected := b.connected[a := b.connected[a].(quality := q)])
  }

  /** `register_message`: a message from a connected peer refreshes its last-seen time
      and counts the message. */
  function RegisterMessage(b: PeerBook, a: SocketAddr, now: Time): (r: PeerBook)
    ensures !IsConnected(b, a) ==> r == b
    ensures r.connecting == b.connecting && r.disconnected == b.disconnected
    ensures r.connected.Keys == b.connected.Keys
    ensures IsConnected(b, a) ==>
      && r.connected[a].quality.lastSeen == Some(now)
      && r.connected[a].quality.numMessagesReceived == WrappingIncU64(b.connected[a].quality.numMessagesReceived)
    ensures forall k :: k in b.connected && k != a ==> r.connected[k] == b.connected[k]
  {
    if a in b.connected then
      var q := b.connected[a].quality;
      WithQuality(b, a, q.(lastSeen := Some(now), numMessagesReceived := WrappingIncU64(q.numMessagesReceived)))
    else b
  }

  /** `sending_ping`: remembers when the ping left and that a pong is now due. */
  function SendingPing(b: PeerBook, target: SocketAddr, now: Time): (r: PeerBook)
    ensures !IsConnected(b, target) ==> r == b
    ensures r.connecting == b.connecting && r.disconnected == b.disconnected
    ensures r.connected.Keys == b.connected.Keys
    ensures IsConnected(b, target) ==>
      r.connected[target].quality.expectingPong && r.connected[target].quality.lastPingSent == Some(now)
    ensures forall k :: k in b.connected && k != target ==> r.connected[k] == b.connected[k]
  {
    if target in b.connected then
      WithQuality(b, target, b.connected[target].quality.(lastPingSent := Some(now), expectingPong := true))
    else b
  }

  /** `received_ping`: records the block height the peer announced. */
  function ReceivedPing(b: PeerBook, source: SocketAddr, blockHeight: u32): (r: PeerBook)
    ensures !IsConnected(b, source) ==> r == b
    ensures r.connecting == b.connecting && r.disconnected == b.disconnected
    ensures r.connected.Keys == b.connected.Keys
    ensures IsConnected(b, source) ==> r.connected[source].quality.blockHeight == blockHeight
    ensures forall k :: k in b.connected && k != source ==> r.connected[k] == b.connected[k]
  {
    if source in b.connected then
      WithQuality(b, source, b.connected[source].quality.(blockHeight := blockHeight))
    else b
  }

  /** The round-trip time of a pong received at `now`, in milliseconds; the monotonic
      clock's elapsed time never goes below zero. */
  function ElapsedMs(sent: Time, now: Time): u64 {
    AsU64(if now >= sent then now - sent else 0)
  }

  /** `received_pong`: an expected pong records the round-trip time and clears the
      expectation; an unexpected pong counts as a failure. */
  function ReceivedPong(b: PeerBook, source: SocketAddr, now: Time): (r: PeerBook)
    requires source in b.connected ==> PeerInfos.PingConsistent(b.connected[source].quality)
    ensures source !in b.connected ==> r == b
    ensures r.connected.Keys == b.connected.Keys
    ensures r.connecting == b.connecting && r.disconnected == b.disconnected
    ensures source in b.connected ==> !r.connected[source].quality.expectingPong
    ensures source in b.connected && b.connected[source].quality.expectingPong ==>
      r.connected[source].quality.failures == b.connected[source].quality.failures
    ensures source in b.connected && !b.connected[source].quality.expectingPong ==>
      r.connected[source].quality.failures == WrappingIncU32(b.connected[source].quality.failures)
    ensures source in b.connected && b.connected[source].quality.expectingPong ==>
      var q := b.connected[source].quality;
      r.connected[source] == b.connected[source].(quality := q.(rttMs := ElapsedMs(q.lastPingSent.value, now), expectingPong := false))
    ensures source in b.connected && !b.connected[source].quality.expectingPong ==>
      var q := b.connected[source].quality;
      r.connected[source] == b.connected[source].(quality := q.(failures := WrappingIncU32(q.failures)))
    ensures forall k :: k in b.connected && k != source ==> r.connected[k] == b.connected[k]
  {
    if source in b.connected then
      var q := b.connected[source].quality;
      if q.expectingPong then
        WithQuality(b, source, q.(rttMs := ElapsedMs(q.lastPingSent.value, now), expectingPong := false))
      else
        WithQuality(b, source, q.(failures := WrappingIncU32(q.failures)))
    else b
  }

  /** `register_failure`: one more failure for a connected peer. */
  function RegisterFailure(b: PeerBook, a: SocketAddr): (r: PeerBook)
    ensures !IsConnected(b, a) ==> r == b
    ensures r.connecting == b.connecting && r.disconnected == b.disconnected
    ensures r.connected.Keys == b.connected.Keys
    ensures IsConnected(b, a) ==>
      r.connected[a].quality.failures == WrappingIncU32(b.connected[a].quality.failures)
    ensures forall k :: k in b.connected && k != a ==> r.connected[k] == b.connected[k]
  {
    if a in b.connected then
      WithQuality(b, a, b.connected[a].quality.(failures := WrappingIncU32(b.connected[a].quality.failures)))
    else b
  }

  /** `expecting_sync_blocks`: arms the countdown of a connected peer with `count`
      (stored as `u32`) and reports whether the peer was found. */
  function ExpectingSyncBlocks(b: PeerBook, a: SocketAddr, count: nat): (r: (bool, PeerBook))
    ensures r.0 <==> IsConnected(b, a)
    ensures !r.0 ==> r.1 == b
    ensures r.0 ==> r.1 == WithQuality(b, a, b.connected[a].quality.(remainingSyncBlocks := AsU32(count)))
  {
    if a in b.connected then
      (true, WithQuality(b, a, b.connected[a].quality.(remainingSyncBlocks := AsU32(count))))
    else (false, b)
  }

  /** `got_sync_block`: counts one received sync block down (wrapping like the atomic
      it models) and reports whether it was the last one of the batch. */
  function GotSyncBlock(b: PeerBook, a: SocketAddr): (r: (bool, PeerBook))
    ensures r.0 <==> IsConnected(b, a) && b.connected[a].quality.remainingSyncBlocks == 1
    ensures !IsConnected(b, a) ==> r.1 == b
    ensures IsConnected(b, a) ==>
      r.1 == WithQuality(b, a, b.connected[a].quality.(
        remainingSyncBlocks := WrappingDecU32(b.connected[a].quality.remainingSyncBlocks)))
  {
    if a in b.connected then
      var q := b.connected[a].quality;
      (q.remainingSyncBlocks == 1, WithQuality(b, a, q.(remainingSyncBlocks := WrappingDecU32(q.remainingSyncBlocks))))
    else (false, b)
  }

  /** One peer's part of `cancel_any_unfinished_syncing`. */
  function CancelSyncing(info: PeerInfo): (r: PeerInfo)
    ensures r.quality.remainingSyncBlocks == 0
    ensures info.quality.remainingSyncBlocks != 0 ==> r.quality.failures == WrappingIncU32(info.quality.failures)
    ensures info.quality.remainingSyncBlocks == 0 ==> r == info
    ensures r == info.(quality := r.quality)
  {
    if info.quality.remainingSyncBlocks != 0 then
      info.(quality := info.quality.(remainingSyncBlocks := 0, failures := WrappingIncU32(info.quality.failures)))
    else info
  }

  /** `cancel_any_unfinished_syncing`: every connected peer's countdown is reset, and a
      peer that still owed blocks is charged a failure. */
  function CancelAnyUnfinishedSyncing(b: PeerBook): (r: PeerBook)
    ensures r.connecting == b.connecting && r.disconnected == b.disconnected
    ensures r.connected.Keys == b.connected.Keys
    ensures forall a :: a in r.connected ==> r.connected[a] == CancelSyncing(b.connected[a])
  {
    b.(connected := map a | a in b.connected :: CancelSyncing(b.connected[a]))
  }

  /** A task handle of a connected peer is appended to its record's task list (the
      list is shared with every copy of the record). */
  function RegisterTask(b: PeerBook, a: SocketAddr, task: PeerInfos.Task): (r: PeerBook)
    ensures !IsConnected(b, a) ==> r == b
    ensures r.connecting == b.connecting && r.disconnected == b.disconnected
    ensures r.connected.Keys == b.connected.Keys
    ensures IsConnected(b, a) ==> r.connected[a] == b.connected[a].(tasks := b.connected[a].tasks + [task])
    ensures forall k :: k in b.connected && k != a ==> r.connected[k] == b.connected[k]
  {
    if a in b.connected then b.(connected := b.connected[a := PeerInfos.RegisterTask(b.connected[a], task)])
    else b
  }

  // ---------------------------------------------------------------------------
  // Sync node selection
  // ---------------------------------------------------------------------------

  /** `last_seen`: a connected peer seen no earlier than any other (`None` is the
      oldest), or nothing when no peer is connected. The map is walked in an
      unspecified order, so any of several equally recent peers may be chosen. */
  method LastSeen(b: PeerBook) returns (r: Option<SocketAddr>)
    ensures r.None? <==> b.connected == map[]
    ensures r.Some? ==> r.value in b.connected
    ensures r.Some? ==> forall a :: a in b.connected ==>
      OptionLe(b.connected[a].quality.lastSeen, b.connected[r.value].quality.lastSeen)
  {
    r := None;
    var todo := b.connected.Keys;
    while todo != {}
      invariant todo <= b.connected.Keys
      invariant r.None? <==> todo == b.connected.Keys
      invariant r.Some? ==> r.value in b.connected
      invariant r.Some? ==> forall a :: a in b.connected.Keys - todo ==>
        OptionLe(b.connected[a].quality.lastSeen, b.connected[r.value].quality.lastSeen)
      decreases todo
    {
      var a :| a in todo;
      if r.None? || OptionLe(b.connected[r.value].quality.lastSeen, b.connected[a].quality.lastSeen) {
        r := Some(a);
      }
      todo := todo - {a};
    }
    if r.None? {
      assert b.connected.Keys == {};
    }
  }

  // ---------------------------------------------------------------------------
  // Saving and restoring
  // ---------------------------------------------------------------------------

  /** The entries of a map whose record's address is not a loopback address. */
  function NonLoopback(m: map<SocketAddr, PeerInfo>): (r: map<SocketAddr, PeerInfo>)
    ensures forall k :: k in r <==> k in m && !IsLoopback(m[k].address.Ip())
    ensures forall k :: k in r ==> r[k] == m[k]
  {
    map k | k in m && !IsLoopback(m[k].address.Ip()) :: m[k]
  }

  /** The records a save writes: the connected map extended by the disconnected one
      (a disconnected record wins on a shared address). */
  function SavedRecords(b: PeerBook): map<SocketAddr, PeerInfo> {
    NonLoopback(b.connected + b.disconnected)
  }

  /** `s` lists the values of `m`, one per key, in the order of `keys`. */
  ghost predicate ListsRecords(s: seq<PeerInfo>, keys: seq<SocketAddr>, m: map<SocketAddr, PeerInfo>) {
    && |s| == |keys|
    && Distinct(keys)
    && (forall i :: 0 <= i < |keys| ==> keys[i] in m && s[i] == m[keys[i]])
    && (forall k :: k in m ==> k in keys)
  }

  /** `From<&PeerBook> for SerializedPeerBook`: every connected or disconnected record
      with a non-loopback address, in the maps' unspecified iteration order. */
  method Save(b: PeerBook) returns (s: seq<PeerInfo>, ghost keys: seq<SocketAddr>)
    ensures ListsRecords(s, keys, SavedRecords(b))
    ensures forall k :: k in SavedRecords(b) ==> SavedRecords(b)[k] in s
    ensures forall i :: 0 <= i < |s| ==> s[i] in SavedRecords(b).Values
  {
    var merged := b.connected + b.disconnected;
    var saved := SavedRecords(b);
    var todo := merged.Keys;
    s, keys := [], [];
    while todo != {}
      invariant todo <= merged.Keys
      invariant |s| == |keys| && Distinct(keys)
      invariant forall i :: 0 <= i < |keys| ==> keys[i] in saved && keys[i] !in todo && s[i] == saved[keys[i]]
      invariant forall k :: k in saved && k !in todo ==> k in keys
      decreases todo
    {
      var k :| k in todo;
      if !IsLoopback(merged[k].address.Ip()) {
        s, keys := s + [merged[k]], keys + [k];
      }
      todo := todo - {k};
    }
    forall k | k in saved ensures saved[k] in s {
      var i :| 0 <= i < |keys| && keys[i] == k;
      assert s[i] == saved[k];
    }
    forall i | 0 <= i < |s| ensures s[i] in saved.Values {
      assert saved[keys[i]] == s[i];
    }
  }

  /** Collects restored records by address; a later record replaces an earlier one
      with the same address, and loopback addresses are dropped. */
  function Collect(s: seq<PeerInfo>): (m: map<SocketAddr, PeerInfo>)
    ensures forall k :: k in m ==> m[k].address == k && !IsLoopback(k.Ip())
    ensures forall k :: k in m ==> exists i :: 0 <= i < |s| && s[i] == m[k]
  {
    if s == [] then map[]
    else
      var last := s[|s| - 1];
      var m := Collect(s[..|s| - 1]);
      if IsLoopback(last.address.Ip()) then m else m[last.address := last]
  }

  /** No later record in `s` has the address of record `i`. */
  predicate LastWithAddress(s: seq<PeerInfo>, i: nat)
    requires i < |s|
  {
    forall j :: i < j < |s| ==> s[j].address != s[i].address
  }

  /** Every non-loopback record of the list is collected under its address. */
  lemma {:induction false} CollectKeepsEveryAddress(s: seq<PeerInfo>)
    ensures forall i :: 0 <= i < |s| && !IsLoopback(s[i].address.Ip()) ==> s[i].address in Collect(s)
    decreases |s|
  {
    if s != [] {
      var n := |s| - 1;
      var init := s[..n];
      CollectKeepsEveryAddress(init);
      forall i | 0 <= i < |s| && !IsLoopback(s[i].address.Ip())
        ensures s[i].address in Collect(s)
      {
        if i < n {
          assert init[i] == s[i];
        }
      }
    }
  }

  /** Of the records sharing an address, the last one is the one collected. */
  lemma {:induction false} CollectKeepsLastRecord(s: seq<PeerInfo>)
    ensures forall i :: 0 <= i < |s| && !IsLoopback(s[i].address.Ip()) && LastWithAddress(s, i) ==>
      s[i].address in Collect(s) && Collect(s)[s[i].address] == s[i]
    decreases |s|
  {
    if s != [] {
      var n := |s| - 1;
      var init := s[..n];
      var m := Collect(init);
      assert Collect(s) == if IsLoopback(s[n].address.Ip()) then m else m[s[n].address := s[n]];
      CollectKeepsLastRecord(init);
      forall i | 0 <= i < n && !IsLoopback(s[i].address.Ip()) && LastWithAddress(s, i)
        ensures s[i].address in Collect(s) && Collect(s)[s[i].address] == s[i]
      {
        assert init[i] == s[i];
        assert LastWithAddress(init, i) by {
          forall j | i < j < n ensures init[j].address != init[i].address {
            assert init[j] == s[j];
          }
        }
        assert s[i].address in m && m[s[i].address] == s[i];
        assert s[n].address != s[i].address;
      }
    }
  }

  /** `From<SerializedPeerBook> for PeerBook`: nothing connecting, nothing connected,
      and every non-loopback record of the list as a disconnected peer, the last
      record winning among those sharing an address. */
  function Restore(s: seq<PeerInfo>): (r: PeerBook)
    ensures r.connecting == {} && r.connected == map[]
    ensures forall k :: k in r.disconnected ==> r.disconnected[k].address == k && !IsLoopback(k.Ip())
    ensures KeysMatch(r) && NoOverlap(r)
    ensures forall k :: k in r.disconnected ==> exists i :: 0 <= i < |s| && s[i] == r.disconnected[k]
    ensures forall i :: 0 <= i < |s| && !IsLoopback(s[i].address.Ip()) ==> s[i].address in r.disconnected
    ensures forall i :: 0 <= i < |s| && !IsLoopback(s[i].address.Ip()) && LastWithAddress(s, i) ==>
      r.disconnected[s[i].address] == s[i]
  {
    CollectKeepsEveryAddress(s);
    CollectKeepsLastRecord(s);
    PeerBook({}, map[], Collect(s))
  }
}

=== FILE: peer_book_lemmas.dfy ===
/**
  Properties of the peer book: the invariant every transition keeps, the
  transition scenarios the book's unit tests walk through, the sync-block
  countdown over a whole batch, and the save/restore round trip.
 */
module PeerBookProperties {
  import opened Base
  import opened Addresses
  import opened PeerBooks
  import PeerInfos

  // ---------------------------------------------------------------------------
  // The invariant
  // ---------------------------------------------------------------------------

  lemma EmptyIsValid()
    ensures Valid(Empty())
  {
  }

  /** `set_connecting` keeps the invariant. */
  lemma SetConnectingPreservesValid(b: PeerBook, a: SocketAddr)
    requires Valid(b)
    ensures SetConnecting(b, a).Ok? ==> Valid(SetConnecting(b, a).value)
  {
  }

  /** `set_connected` keeps the invariant: the listener key leaves `disconnected` as
      it enters `connected`, and its record carries its own address. */
  lemma SetConnectedPreservesValid(b: PeerBook, a: SocketAddr, listener: Option<SocketAddr>, now: PeerInfos.Time)
    requires Valid(b)
    ensures Valid(SetConnected(b, a, listener, now))
  {
    var key := ListenerKey(a, listener);
    var info := if key in b.disconnected then b.disconnected[key] else PeerInfos.New(key);
    assert info.address == key;
    assert PeerInfos.PingConsistent(info.quality);
  }

  /** `set_disconnected` keeps the invariant: the record leaves `connected` as it
      enters `disconnected`. */
  lemma SetDisconnectedPreservesValid(b: PeerBook, a: SocketAddr, now: PeerInfos.Time)
    requires Valid(b)
    ensures Valid(SetDisconnected(b, a, now).1)
  {
  }

  /** `add_peer`, `remove_peer` and `set_unroutable` keep the invariant. */
  lemma MembershipUpdatesPreserveValid(b: PeerBook, a: SocketAddr, now: PeerInfos.Time)
    requires Valid(b)
    ensures Valid(AddPeer(b, a))
    ensures Valid(RemovePeer(b, a, now))
    ensures Valid(SetUnroutable(b, a))
  {
    SetDisconnectedPreservesValid(b, a, now);
  }

  /** Replacing a connected peer's counters keeps the invariant when the new counters
      are themselves consistent. */
  lemma WithQualityPreservesValid(b: PeerBook, a: SocketAddr, q: PeerQuality)
    requires Valid(b) && a in b.connected
    requires PeerInfos.PingConsistent(q)
    ensures Valid(WithQuality(b, a, q))
  {
  }

  /** The quality bookkeeping keeps the invariant. */
  lemma QualityUpdatesPreserveValid(b: PeerBook, a: SocketAddr, now: PeerInfos.Time, height: u32, count: nat)
    requires Valid(b)
    ensures Valid(RegisterMessage(b, a, now))
    ensures Valid(SendingPing(b, a, now))
    ensures Valid(ReceivedPing(b, a, height))
    ensures Valid(ReceivedPong(b, a, now))
    ensures Valid(RegisterFailure(b, a))
    ensures Valid(ExpectingSyncBlocks(b, a, count).1)
    ensures Valid(GotSyncBlock(b, a).1)
  {
    if a in b.connected {
      var q := b.connected[a].quality;
      WithQualityPreservesValid(b, a, q.(lastSeen := Some(now), numMessagesReceived := WrappingIncU64(q.numMessagesReceived)));
      WithQualityPreservesValid(b, a, q.(lastPingSent := Some(now), expectingPong := true));
      WithQualityPreservesValid(b, a, q.(blockHeight := height));
      if q.expectingPong {
        WithQualityPreservesValid(b, a, q.(rttMs := ElapsedMs(q.lastPingSent.value, now), expectingPong := false));
      }
      WithQualityPreservesValid(b, a, q.(failures := WrappingIncU32(q.failures)));
      WithQualityPreservesValid(b, a, q.(remainingSyncBlocks := AsU32(count)));
      WithQualityPreservesValid(b, a, q.(remainingSyncBlocks := WrappingDecU32(q.remainingSyncBlocks)));
    }
  }

  /** Cancelling unfinished syncs keeps the invariant. */
  lemma CancelSyncingPreservesValid(b: PeerBook)
    requires Valid(b)
    ensures Valid(CancelAnyUnfinishedSyncing(b))
  {
    var r := CancelAnyUnfinishedSyncing(b);
    forall k | k in r.connected
      ensures r.connected[k].address == k && PeerInfos.PingConsistent(r.connected[k].quality)
    {
      assert r.connected[k] == CancelSyncing(b.connected[k]);
    }
  }

  /** Registering a task keeps the invariant. */
  lemma RegisterTaskPreservesValid(b: PeerBook, a: SocketAddr, task: PeerInfos.Task)
    requires Valid(b)
    ensures Valid(RegisterTask(b, a, task))
  {
  }

  /** `add_peer` is idempotent. */
  lemma AddPeerIdempotent(b: PeerBook, a: SocketAddr)
    ensures AddPeer(AddPeer(b, a), a) == AddPeer(b, a)
  {
  }

  /** The record of a reconnecting peer is the one it left with: its connection
      count keeps growing and its first connection time is kept. */
  lemma ReconnectReusesRecord(b: PeerBook, a: SocketAddr, t1: PeerInfos.Time, t2: PeerInfos.Time)
    requires !IsConnecting(b, a)
    requires IsConnected(b, a) && PeerInfos.HistoryConsistent(b.connected[a])
    requires b.connected[a].connectedCount > 0
    ensures var b1 := SetDisconnected(b, a, t1).1;
            var b2 := SetConnected(b1, a, None, t2);
            && b2.connected[a].connectedCount == b.connected[a].connectedCount + 1
            && b2.connected[a].firstConnected == b.connected[a].firstConnected
            && b2.connected[a].lastDisconnected == Some(t1)
  {
  }

  // ---------------------------------------------------------------------------
  // The unit-test scenarios, for an arbitrary address
  // ---------------------------------------------------------------------------

  /** A peer added and then dialled is both connecting and disconnected. */
  lemma ScenarioConnectingFromNeverConnected(a: SocketAddr)
    ensures var b1 := AddPeer(Empty(), a);
            && !IsConnecting(b1, a) && !IsConnected(b1, a) && IsDisconnected(b1, a)
            && SetConnecting(b1, a).Ok?
            && var b2 := SetConnecting(b1, a).value;
               IsConnecting(b2, a) && !IsConnected(b2, a) && IsDisconnected(b2, a)
  {
  }

  /** Completing a handshake moves a connecting address to `connected`. */
  lemma ScenarioConnectedFromConnecting(a: SocketAddr, now: PeerInfos.Time)
    ensures SetConnecting(Empty(), a).Ok?
    ensures var b1 := SetConnecting(Empty(), a).value;
            && IsConnecting(b1, a) && !IsConnected(b1, a) && !IsDisconnected(b1, a)
            && var b2 := SetConnected(b1, a, None, now);
               !IsConnecting(b2, a) && IsConnected(b2, a) && !IsDisconnected(b2, a)
  {
  }

  /** Disconnecting a connecting (and previously known) address only cancels the dial. */
  lemma ScenarioDisconnectedFromConnecting(a: SocketAddr, now: PeerInfos.Time)
    ensures SetConnecting(AddPeer(Empty(), a), a).Ok?
    ensures var b2 := SetConnecting(AddPeer(Empty(), a), a).value;
            && IsConnecting(b2, a) && !IsConnected(b2, a) && IsDisconnected(b2, a)
            && var b3 := SetDisconnected(b2, a, now).1;
               !IsConnecting(b3, a) && !IsConnected(b3, a) && IsDisconnected(b3, a)
  {
  }

  /** Disconnecting a connected peer files it as disconnected, and it can connect again. */
  lemma ScenarioDisconnectedFromConnected(a: SocketAddr, t1: PeerInfos.Time, t2: PeerInfos.Time, t3: PeerInfos.Time)
    ensures SetConnecting(Empty(), a).Ok?
    ensures var b2 := SetConnected(SetConnecting(Empty(), a).value, a, None, t1);
            && var r := SetDisconnected(b2, a, t2);
               && r.0
               && !IsConnecting(r.1, a) && !IsConnected(r.1, a) && IsDisconnected(r.1, a)
               && var b4 := SetConnected(r.1, a, None, t3);
                  !IsConnecting(b4, a) && IsConnected(b4, a) && b4.connected[a].connectedCount == 2
  {
  }

  // ---------------------------------------------------------------------------
  // The sync-block countdown
  // ---------------------------------------------------------------------------

  /** The answers of `k` successive `got_sync_block` calls for one address. */
  function CountDown(b: PeerBook, a: SocketAddr, k: nat): (r: seq<bool>)
    ensures |r| == k
    decreases k
  {
    if k == 0 then []
    else
      var step := GotSyncBlock(b, a);
      [step.0] + CountDown(step.1, a, k - 1)
  }

  /** While a batch of `m` blocks is outstanding, the `i`-th of the next `k <= m`
      arrivals finishes the batch exactly when it is the `m`-th. */
  lemma {:induction false} CountDownAnswers(b: PeerBook, a: SocketAddr, m: nat, k: nat)
    requires IsConnected(b, a)
    requires b.connected[a].quality.remainingSyncBlocks == m
    requires k <= m
    ensures forall i :: 0 <= i < k ==> CountDown(b, a, k)[i] == (i == m - 1)
    decreases k
  {
    if k > 0 {
      var step := GotSyncBlock(b, a);
      assert step.1.connected[a].quality.remainingSyncBlocks == m - 1;
      CountDownAnswers(step.1, a, m - 1, k - 1);
      var r := CountDown(b, a, k);
      assert r == [step.0] + CountDown(step.1, a, k - 1);
      forall i | 0 <= i < k
        ensures r[i] == (i == m - 1)
      {
        if i > 0 {
          assert r[i] == CountDown(step.1, a, k - 1)[i - 1];
        }
      }
    }
  }

  /** A `Sync` announcing `n` blocks arms the countdown so that the `n`-th sync block
      from that peer, and no earlier one, reports the batch as finished. */
  lemma SyncBatchFinishesOnLastBlock(b: PeerBook, a: SocketAddr, n: nat)
    requires IsConnected(b, a)
    requires 0 < n < U32_LIMIT
    ensures ExpectingSyncBlocks(b, a, n).0
    ensures var armed := ExpectingSyncBlocks(b, a, n).1;
            CountDown(armed, a, n) == seq(n, i => i == n - 1)
  {
    var armed := ExpectingSyncBlocks(b, a, n).1;
    CountDownAnswers(armed, a, n, n);
  }

  /** A sync block nobody was waiting for does not finish a batch, and the counter
      wraps around to the largest `u32`. */
  lemma UnexpectedSyncBlockWraps(b: PeerBook, a: SocketAddr)
    requires IsConnected(b, a)
    requires b.connected[a].quality.remainingSyncBlocks == 0
    ensures !GotSyncBlock(b, a).0
    ensures GotSyncBlock(b, a).1.connected[a].quality.remainingSyncBlocks == U32_LIMIT - 1
  {
  }

  // ---------------------------------------------------------------------------
  // Save and restore
  // ---------------------------------------------------------------------------

  /** Dropping the last entry of a listing lists the map without that entry's key. */
  lemma ListsPrefix(s: seq<PeerInfo>, keys: seq<SocketAddr>, m: map<SocketAddr, PeerInfo>)
    requires ListsRecords(s, keys, m) && |s| > 0
    ensures ListsRecords(s[..|s| - 1], keys[..|s| - 1], m - {keys[|s| - 1]})
  {
    var n := |s| - 1;
    var m' := m - {keys[n]};
    forall k | k in m'
      ensures k in keys[..n]
    {
      assert k in keys;
      var i :| 0 <= i < |keys| && keys[i] == k;
      assert i != n;
      assert keys[..n][i] == k;
    }
    forall i | 0 <= i < n
      ensures keys[..n][i] in m' && s[..n][i] == m'[keys[..n][i]]
    {
      assert keys[i] != keys[n];
    }
  }

  /** Removing an entry and putting it back gives the map itself. */
  lemma RestoreEntry(m: map<SocketAddr, PeerInfo>, k: SocketAddr, v: PeerInfo)
    requires k in m && m[k] == v
    ensures (m - {k})[k := v] == m
  {
  }

  /** A list of non-loopback records with distinct addresses, covering a map that
      files each record under its own address, collects back into that map. */
  lemma {:induction false} CollectListed(s: seq<PeerInfo>, keys: seq<SocketAddr>, m: map<SocketAddr, PeerInfo>)
    requires ListsRecords(s, keys, m)
    requires forall k :: k in m ==> m[k].address == k && !IsLoopback(k.Ip())
    ensures Collect(s) == m
    decreases |s|
  {
    if s == [] {
      assert |keys| == 0;
      assert forall k :: k !in m;
    } else {
      var n := |s| - 1;
      var m' := m - {keys[n]};
      ListsPrefix(s, keys, m);
      CollectListed(s[..n], keys[..n], m');
      var k, v := keys[n], s[n];
      assert k in m && m[k] == v;
      assert v.address == k && !IsLoopback(k.Ip());
      assert Collect(s) == Collect(s[..n])[k := v];
      RestoreEntry(m, k, v);
    }
  }

  /** Restoring what a save wrote yields a book with nothing connecting or connected
      whose disconnected peers are exactly the non-loopback records of the saved
      connected and disconnected maps. */
  lemma RestoreAfterSave(b: PeerBook, s: seq<PeerInfo>, keys: seq<SocketAddr>)
    requires Valid(b)
    requires ListsRecords(s, keys, SavedRecords(b))
    ensures Restore(s) == PeerBook({}, map[], SavedRecords(b))
  {
    var m := SavedRecords(b);
    forall k | k in m
      ensures m[k].address == k && !IsLoopback(k.Ip())
    {
      assert k in b.connected || k in b.disconnected;
    }
    CollectListed(s, keys, m);
  }

  /** With the invariant, the restored book holds every non-loopback peer the old book
      knew as connected or disconnected, each with its old record. */
  lemma RestoreKeepsEveryRemotePeer(b: PeerBook, s: seq<PeerInfo>, keys: seq<SocketAddr>)
    requires Valid(b)
    requires ListsRecords(s, keys, SavedRecords(b))
    ensures forall a :: a in b.connected && !IsLoopback(a.Ip()) ==>
      a in Restore(s).disconnected && Restore(s).disconnected[a] == b.connected[a]
    ensures forall a :: a in b.disconnected && !IsLoopback(a.Ip()) ==>
      a in Restore(s).disconnected && Restore(s).disconnected[a] == b.disconnected[a]
    ensures forall a :: a in Restore(s).disconnected ==> a in b.connected || a in b.disconnected
  {
    RestoreAfterSave(b, s, keys);
  }
}

=== FILE: peer_info.dfy ===
/**
  The per-peer record (`PeerInfo`) and its connection-quality counters
  (`PeerQuality`), with the connect/disconnect bookkeeping and the inactivity test.

  Timestamps are abstract: one clock reading in milliseconds stands for both the
  wall-clock `DateTime` values and the monotonic `Instant` of the last ping.
 */
module PeerInfos {
  import opened Base
  import opened Addresses

  /** A clock reading, in milliseconds. */
  type Time = nat

  /** The atomics and locks of `PeerQuality`, as plain values. */
  datatype PeerQuality = PeerQuality(
    blockHeight: u32,
    lastSeen: Option<Time>,
    expectingPong: bool,
    lastPingSent: Option<Time>,
    rttMs: u64,
    failures: u32,
    remainingSyncBlocks: u32,
    numMessagesReceived: u64)

  /** A spawned per-connection task; `abortable` says whether it may be aborted
      or must be awaited when the peer disconnects. */
  datatype Task = Task(handle: nat, abortable: bool)

  /** What disconnecting does with one task handle. */
  datatype Shutdown = Abort(handle: nat) | AwaitWithDeadline(handle: nat)

  datatype PeerInfo = PeerInfo(
    address: SocketAddr,
    isRoutable: bool,
    firstConnected: Option<Time>,
    lastConnected: Option<Time>,
    lastDisconnected: Option<Time>,
    connectedCount: nat,
    quality: PeerQuality,
    tasks: seq<Task>)

  /** `PeerQuality::default()`: every counter zero, every timestamp absent. */
  function DefaultQuality(): PeerQuality {
    PeerQuality(0, None, false, None, 0, 0, 0, 0)
  }

  /** The inactivity window in milliseconds, for a limit given in whole seconds. */
  function InactivityWindow(maxInactivitySecs: nat): nat {
    maxInactivitySecs * 1000
  }

  /** `PeerQuality::is_inactive`: a peer never seen counts as inactive; otherwise it is
      inactive once strictly more than the window has passed since it was last seen. */
  function IsInactive(q: PeerQuality, now: Time, maxInactivitySecs: nat): (r: bool)
    ensures q.lastSeen.None? ==> r
    ensures q.lastSeen.Some? && now <= q.lastSeen.value + InactivityWindow(maxInactivitySecs) ==> !r
    ensures q.lastSeen.Some? && now > q.lastSeen.value + InactivityWindow(maxInactivitySecs) ==> r
  {
    match q.lastSeen
    case None => true
    case Some(seen) => now - seen > InactivityWindow(maxInactivitySecs)
  }

  /** A pong can only be expected after a ping was sent; `received_pong` unwraps the
      ping timestamp relying on this. */
  predicate PingConsistent(q: PeerQuality) {
    q.expectingPong ==> q.lastPingSent.Some?
  }

  /** `PeerInfo::new`. */
  function New(address: SocketAddr): (info: PeerInfo)
    ensures info.address == address && info.isRoutable
    ensures info.connectedCount == 0
    ensures info.firstConnected == None && info.lastConnected == None && info.lastDisconnected == None
    ensures info.tasks == []
    ensures PingConsistent(info.quality)
  {
    PeerInfo(address, true, None, None, None, 0, DefaultQuality(), [])
  }

  /** `PeerInfo::set_connected` at time `now`. */
  function SetConnected(info: PeerInfo, now: Time): (r: PeerInfo)
    ensures r.connectedCount == info.connectedCount + 1
    ensures r.lastConnected == Some(now) && r.quality.lastSeen == Some(now)
    ensures info.firstConnected.Some? ==> r.firstConnected == info.firstConnected
    ensures info.firstConnected.None? ==> r.firstConnected == Some(now)
    ensures r.address == info.address && r.isRoutable == info.isRoutable
    ensures r.lastDisconnected == info.lastDisconnected && r.tasks == info.tasks
    ensures r.quality == info.quality.(lastSeen := Some(now))
  {
    info.(
      firstConnected := if info.firstConnected.None? then Some(now) else info.firstConnected,
      lastConnected := Some(now),
      quality := info.quality.(lastSeen := Some(now)),
      connectedCount := info.connectedCount + 1)
  }

  /** `PeerInfo::set_disconnected` at time `now`: the task list is drained (what happens
      to each drained handle is `ShutdownOrder`). */
  function SetDisconnected(info: PeerInfo, now: Time): (r: PeerInfo)
    ensures r.lastDisconnected == Some(now)
    ensures r.quality == info.quality.(expectingPong := false, remainingSyncBlocks := 0)
    ensures r.tasks == []
    ensures r.address == info.address && r.connectedCount == info.connectedCount
    ensures r.firstConnected == info.firstConnected && r.lastConnected == info.lastConnected
    ensures r.isRoutable == info.isRoutable
    ensures PingConsistent(r.quality)
  {
    info.(
      lastDisconnected := Some(now),
      quality := info.quality.(expectingPong := false, remainingSyncBlocks := 0),
      tasks := [])
  }

  /** The drained handles of `set_disconnected`, in the order they are handled: the
      list is walked from its newest entry back, aborting abortable tasks and awaiting
      (under a deadline) the others. */
  function ShutdownOrder(tasks: seq<Task>): (r: seq<Shutdown>)
    ensures |r| == |tasks|
    ensures forall i :: 0 <= i < |r| ==>
      r[i] == (if tasks[|tasks| - 1 - i].abortable then Abort(tasks[|tasks| - 1 - i].handle)
               else AwaitWithDeadline(tasks[|tasks| - 1 - i].handle))
  {
    if tasks == [] then []
    else
      var last := tasks[|tasks| - 1];
      [if last.abortable then Abort(last.handle) else AwaitWithDeadline(last.handle)]
        + ShutdownOrder(tasks[..|tasks| - 1])
  }

  /** `PeerInfo::register_task`. */
  function RegisterTask(info: PeerInfo, task: Task): (r: PeerInfo)
    ensures |r.tasks| == |info.tasks| + 1
    ensures r.tasks[..|info.tasks|] == info.tasks && r.tasks[|info.tasks|] == task
    ensures r == info.(tasks := r.tasks)
  {
    info.(tasks := info.tasks + [task])
  }

  /** The record keeps its history consistent: a first and a last connection time
      exist exactly when the peer has been connected at least once, and a pong is
      expected only after a ping. */
  predicate HistoryConsistent(info: PeerInfo) {
    && (info.firstConnected.Some? <==> info.connectedCount > 0)
    && (info.lastConnected.Some? <==> info.connectedCount > 0)
    && PingConsistent(info.quality)
  }

  /** A fresh record is consistent, has no history and is inactive at every time. */
  lemma FreshPeerHasNoHistory(address: SocketAddr, now: Time, maxInactivitySecs: nat)
    ensures HistoryConsistent(New(address))
    ensures IsInactive(New(address).quality, now, maxInactivitySecs)
    ensures New(address).quality.remainingSyncBlocks == 0 && !New(address).quality.expectingPong
  {
  }

  /** Connecting and disconnecting keep the record consistent. */
  lemma TransitionsKeepHistory(info: PeerInfo, now: Time)
    requires HistoryConsistent(info)
    ensures HistoryConsistent(SetConnected(info, now))
    ensures HistoryConsistent(SetDisconnected(info, now))
  {
  }

  /** Only the first connection sets `first_connected`: after two connections it holds
      the time of the first one (or the older value), while `last_connected` holds the
      second. */
  lemma FirstConnectedIsSticky(info: PeerInfo, t1: Time, t2: Time)
    ensures SetConnected(SetConnected(info, t1), t2).firstConnected
            == (if info.firstConnected.Some? then info.firstConnected else Some(t1))
    ensures SetConnected(SetConnected(info, t1), t2).lastConnected == Some(t2)
    ensures SetConnected(SetConnected(info, t1), t2).connectedCount == info.connectedCount + 2
  {
  }

  /** A peer is active right after it connects, for the whole inactivity window. */
  lemma ConnectedPeerIsActive(info: PeerInfo, now: Time, later: Time, maxInactivitySecs: nat)
    requires now <= later <= now + InactivityWindow(maxInactivitySecs)
    ensures !IsInactive(SetConnected(info, now).quality, later, maxInactivitySecs)
  {
  }

  /** Inactivity is permanent while the peer stays silent: once inactive, a peer is
      inactive at every later time. */
  lemma InactivityIsMonotone(q: PeerQuality, now: Time, later: Time, maxInactivitySecs: nat)
    requires now <= later
    requires IsInactive(q, now, maxInactivitySecs)
    ensures IsInactive(q, later, maxInactivitySecs)
  {
  }

  /** The most recently registered task is the first one handled on disconnect. */
  lemma {:induction false} NewestTaskShutsDownFirst(info: PeerInfo, task: Task)
    ensures ShutdownOrder(RegisterTask(info, task).tasks)[0]
            == (if task.abortable then Abort(task.handle) else AwaitWithDeadline(task.handle))
    ensures ShutdownOrder(RegisterTask(info, task).tasks)[1..] == ShutdownOrder(info.tasks)
  {
    var ts := RegisterTask(info, task).tasks;
    assert ts[..|ts| - 1] == info.tasks;
  }
}

=== FILE: peers.dfy ===
/**
  The node's peer policy: when it may dial, what a dial does to the peer book and
  the outbound channels, how a failed dial is cleaned up, which peers the periodic
  maintenance pass drops and which it dials, and what it broadcasts.

  Dials and broadcasts are asynchronous in the node; here a dial is one function of
  the node and the handshake's outcome, and the maintenance pass returns the
  addresses it would dial and the messages it would send.
 */
module Peers {
  import opened Base
  import opened Addresses
  import opened Errors
  import opened Messages
  import PeerInfos
  import opened PeerBooks
  import PeerBookProperties
  import Topology

  /** The node's configuration, as far as the peer policy reads it. */
  datatype Config = Config(
    minPeers: u16,
    maxPeers: u16,
    bootnodes: seq<SocketAddr>,
    isBootnode: bool,
    maxInactivitySecs: nat)

  /** A node: its peer book, the addresses it holds an outbound channel for, its own
      listening address (known once the node is up) and its configuration. */
  datatype Node = Node(book: PeerBook, channels: set<SocketAddr>, own: SocketAddr, config: Config)

  /** Every connected peer has an outbound channel, and every channel belongs to a
      connected peer. */
  predicate Consistent(node: Node) {
    Valid(node.book) && node.channels == node.book.connected.Keys
  }

  /** Where an address stands in a book: connecting or not, and its records. */
  function Standing(b: PeerBook, a: SocketAddr): (bool, Option<PeerInfo>, Option<PeerInfo>) {
    (a in b.connecting,
     if a in b.connected then Some(b.connected[a]) else None,
     if a in b.disconnected then Some(b.disconnected[a]) else None)
  }

  // ---------------------------------------------------------------------------
  // Admission
  // ---------------------------------------------------------------------------

  /** `can_connect`: the connected count and the connected-plus-connecting count are
      both below the maximum. */
  function CanConnect(b: PeerBook, maxPeers: u16): (r: bool)
    ensures r <==> NumberOfConnected(b) as int + NumberOfConnecting(b) as int < maxPeers as int
    ensures |b.connected| < U16_LIMIT && |b.connecting| < U16_LIMIT ==>
      (r <==> |b.connected| + |b.connecting| < maxPeers as int)
  {
    var connected := NumberOfConnected(b) as int;
    var connecting := NumberOfConnecting(b) as int;
    !(connected >= maxPeers as int || connected + connecting >= maxPeers as int)
  }

  /** The address is the node's own, or an unspecified or loopback address on the
      node's own port. */
  function IsSelfConnect(remote: SocketAddr, own: SocketAddr): (r: bool)
    ensures remote == own ==> r
    ensures (IsUnspecified(remote.Ip()) || IsLoopback(remote.Ip())) && remote.Port() == own.Port() ==> r
    ensures r ==> remote.Port() == own.Port()
    ensures r && remote.Ip() != own.Ip() ==> IsUnspecified(remote.Ip()) || IsLoopback(remote.Ip())
  {
    remote == own
    || ((IsUnspecified(remote.Ip()) || IsLoopback(remote.Ip())) && remote.Port() == own.Port())
  }

  /** The checks `initiate_connection` makes before touching the book, in order. */
  function ConnectionPrecheck(node: Node, remote: SocketAddr): (r: Option<NetworkError>)
    ensures r == Some(TooManyConnections) <==> !CanConnect(node.book, node.config.maxPeers)
    ensures r == Some(SelfConnectAttempt) <==>
      CanConnect(node.book, node.config.maxPeers) && IsSelfConnect(remote, node.own)
    ensures r == Some(PeerAlreadyConnecting) <==>
      CanConnect(node.book, node.config.maxPeers) && !IsSelfConnect(remote, node.own)
      && IsConnecting(node.book, remote)
    ensures r == Some(PeerAlreadyConnected) <==>
      CanConnect(node.book, node.config.maxPeers) && !IsSelfConnect(remote, node.own)
      && !IsConnecting(node.book, remote) && IsConnected(node.book, remote)
    ensures r.None? ==> SetConnecting(node.book, remote).Ok?
  {
    if !CanConnect(node.book, node.config.maxPeers) then Some(TooManyConnections)
    else if IsSelfConnect(remote, node.own) then Some(SelfConnectAttempt)
    else if remote in node.book.connecting then Some(PeerAlreadyConnecting)
    else if remote in node.book.connected then Some(PeerAlreadyConnected)
    else None
  }

  // ---------------------------------------------------------------------------
  // Dialling
  // ---------------------------------------------------------------------------

  /** How the handshake task ended when it ended with an error of its own. */
  datatype HandshakeFailure =
    | Invalid            // a zero-length frame or a protocol version mismatch
    | SelfConnect        // the responder announced this node's own id
    | Transport(code: nat)  // an I/O or Noise error

  function FailureError(f: HandshakeFailure): NetworkError {
    match f
    case Invalid => InvalidHandshake
    case SelfConnect => SelfConnectAttempt
    case Transport(code) => Other(code)
  }

  /** How the handshake, raced against its deadline, turned out. */
  datatype HandshakeOutcome =
    | Completed
    | Aborted(failure: HandshakeFailure)
    | JoinFailed
    | TimedOut

  /** A node after an operation that may fail, with the operation's result. */
  datatype Attempt = Attempt(node: Node, result: Result<(), NetworkError>)

  /** `Node::set_connected`: refused when the listener is already connected;
      otherwise the listener gets a channel, the book files the connection under the
      listener and the reading and writing tasks join the peer's task list. */
  function NodeSetConnected(node: Node, remote: SocketAddr, listener: SocketAddr, now: Time,
                            readTask: nat, writeTask: nat): (r: Attempt)
    ensures r.result.Err? <==> listener in node.book.connected
    ensures r.result.Err? ==> r.result.error == PeerAlreadyConnected && r.node == node
    ensures r.node.own == node.own && r.node.config == node.config
    ensures r.result.Ok? ==>
      var booked := SetConnected(node.book, remote, Some(listener), now);
      && r.node.channels == node.channels + {listener}
      && r.node.book.connecting == booked.connecting
      && r.node.book.disconnected == booked.disconnected
      && r.node.book.connected.Keys == booked.connected.Keys
      && r.node.book.connected[listener] == booked.connected[listener].(
           tasks := booked.connected[listener].tasks + [PeerInfos.Task(readTask, true), PeerInfos.Task(writeTask, false)])
      && (forall k :: k in booked.connected && k != listener ==> r.node.book.connected[k] == booked.connected[k])
  {
    if listener in node.book.connected then Attempt(node, Err(PeerAlreadyConnected))
    else
      var channels := node.channels + {listener};
      var booked := SetConnected(node.book, remote, Some(listener), now);
      var withRead := RegisterTask(booked, listener, PeerInfos.Task(readTask, true));
      var withBoth := RegisterTask(withRead, listener, PeerInfos.Task(writeTask, false));
      Attempt(node.(book := withBoth, channels := channels), Ok(()))
  }

  /** `initiate_connection`: the prechecks, then the address joins `connecting` and the
      handshake decides. A completed handshake connects the peer under its own
      address; any other outcome leaves the address in `connecting` for the caller
      to clean up. */
  function InitiateConnection(node: Node, remote: SocketAddr, outcome: HandshakeOutcome, now: Time,
                              readTask: nat, writeTask: nat): (r: Attempt)
    ensures ConnectionPrecheck(node, remote).Some? ==>
      r == Attempt(node, Err(ConnectionPrecheck(node, remote).value))
    ensures ConnectionPrecheck(node, remote).None? ==> (r.result.Ok? <==> outcome.Completed?)
    ensures ConnectionPrecheck(node, remote).None? && outcome.Completed? ==>
      && IsConnected(r.node.book, remote) && !IsConnecting(r.node.book, remote)
      && remote in r.node.channels
      && r.node.book.connected[remote].lastConnected == Some(now)
    ensures ConnectionPrecheck(node, remote).None? && !outcome.Completed? ==>
      && r.node == node.(book := node.book.(connecting := node.book.connecting + {remote}))
      && r.result == Err(match outcome
                         case Aborted(f) => FailureError(f)
                         case JoinFailed => InvalidHandshake
                         case _ => HandshakeTimeout)
    ensures r.node.own == node.own && r.node.config == node.config
  {
    var pre := ConnectionPrecheck(node, remote);
    if pre.Some? then Attempt(node, Err(pre.value))
    else
      var pending := node.(book := SetConnecting(node.book, remote).value);
      match outcome
      case Completed => NodeSetConnected(pending, remote, remote, now, readTask, writeTask)
      case Aborted(f) => Attempt(pending, Err(FailureError(f)))
      case JoinFailed => Attempt(pending, Err(InvalidHandshake))
      case TimedOut => Attempt(pending, Err(HandshakeTimeout))
  }

  /** `disconnect_from_peer`: the book forgets the connection, and the channel is
      dropped when the peer really was connected. Nothing about any other address
      changes. */
  function DisconnectFromPeer(node: Node, a: SocketAddr, now: Time): (r: Node)
    ensures r.own == node.own && r.config == node.config
    ensures r.book == SetDisconnected(node.book, a, now).1
    ensures a in r.channels <==> a in node.channels && (IsConnecting(node.book, a) || !IsConnected(node.book, a))
    ensures forall k :: k != a ==>
      (k in r.channels <==> k in node.channels) && Standing(r.book, k) == Standing(node.book, k)
  {
    var (wasConnected, book) := SetDisconnected(node.book, a, now);
    node.(book := book, channels := if wasConnected then node.channels - {a} else node.channels)
  }

  /** The clean-up after a failed dial that did fail for real: disconnect, and mark the
      address unroutable. */
  function MarkFailedDial(node: Node, remote: SocketAddr, now: Time): (r: Node)
    ensures !IsConnecting(r.book, remote)
    ensures node.book.disconnected.Keys <= r.book.disconnected.Keys
    ensures IsDisconnected(node.book, remote) ==> !r.book.disconnected[remote].isRoutable
    ensures r.own == node.own && r.config == node.config
  {
    var n := DisconnectFromPeer(node, remote, now);
    n.(book := SetUnroutable(n.book, remote))
  }

  /** A dial error that needs no clean-up: another attempt is under way, the peer is
      already connected, or the node is full. */
  predicate BenignDialError(e: NetworkError) {
    e.PeerAlreadyConnecting? || e.PeerAlreadyConnected? || e.TooManyConnections?
  }

  /** The dial-error handling of `connect_to_bootnodes` and
      `connect_to_disconnected_peers` as written: a bootnode dial cleans up after a
      self-connect error, a peer dial does not. */
  function DialFailureResponseAsWritten(node: Node, remote: SocketAddr, e: NetworkError,
                                        bootnodeDial: bool, now: Time): (r: Node)
    ensures BenignDialError(e) || (!bootnodeDial && e.SelfConnectAttempt?) ==> r == node
    ensures !BenignDialError(e) && (bootnodeDial || !e.SelfConnectAttempt?) ==> !IsConnecting(r.book, remote)
  {
    if BenignDialError(e) || (!bootnodeDial && e.SelfConnectAttempt?) then node
    else MarkFailedDial(node, remote, now)
  }

  /** The dial-error handling with the self-connect case treated alike for both kinds
      of dial: every error but the benign ones is cleaned up. */
  function DialFailureResponse(node: Node, remote: SocketAddr, e: NetworkError, now: Time): (r: Node)
    ensures BenignDialError(e) ==> r == node
    ensures !BenignDialError(e) ==> !IsConnecting(r.book, remote)
    ensures node.book.disconnected.Keys <= r.book.disconnected.Keys
    ensures !BenignDialError(e) && IsDisconnected(node.book, remote) ==> !r.book.disconnected[remote].isRoutable
    ensures r.own == node.own && r.config == node.config
  {
    if BenignDialError(e) then node
    else MarkFailedDial(node, remote, now)
  }

  /** One dial as the maintenance tasks run it: the attempt, then the clean-up. Once
      the prechecks pass, the peer ends up connected exactly when the handshake
      completes. */
  function Dial(node: Node, remote: SocketAddr, outcome: HandshakeOutcome, now: Time,
                readTask: nat, writeTask: nat): (r: Node)
    ensures r.own == node.own && r.config == node.config
    ensures ConnectionPrecheck(node, remote).None? ==> (IsConnected(r.book, remote) <==> outcome.Completed?)
  {
    var attempt := InitiateConnection(node, remote, outcome, now, readTask, writeTask);
    if attempt.result.Ok? then attempt.node
    else DialFailureResponse(attempt.node, remote, attempt.result.error, now)
  }

  /** One dial, of a bootnode or of a disconnected peer as `bootnodeDial` says, with
      the error handling as written. Once the prechecks pass, the peer ends up
      connected exactly when the handshake completes. */
  function DialAsWritten(node: Node, remote: SocketAddr, outcome: HandshakeOutcome, now: Time,
                         readTask: nat, writeTask: nat, bootnodeDial: bool): (r: Node)
    ensures r.own == node.own && r.config == node.config
    ensures ConnectionPrecheck(node, remote).None? ==> (IsConnected(r.book, remote) <==> outcome.Completed?)
  {
    var attempt := InitiateConnection(node, remote, outcome, now, readTask, writeTask);
    if attempt.result.Ok? then attempt.node
    else DialFailureResponseAsWritten(attempt.node, remote, attempt.result.error, bootnodeDial, now)
  }

  /** A dial never leaves behind a handshake it started: unless another attempt was
      already under way, the address is not connecting afterwards, whatever the
      outcome. */
  lemma DialLeavesNoPendingHandshake(node: Node, remote: SocketAddr, outcome: HandshakeOutcome, now: Time,
                                     readTask: nat, writeTask: nat)
    requires !IsConnecting(node.book, remote)
    ensures !IsConnecting(Dial(node, remote, outcome, now, readTask, writeTask).book, remote)
  {
  }

  /** As written, a peer dial whose handshake meets the node itself under another
      address keeps the address in `connecting` for good: the self-connect error is
      taken for the precheck's, which happens before `connecting` is touched. */
  lemma DialAsWrittenLeaksSelfConnect(node: Node, remote: SocketAddr, now: Time, readTask: nat, writeTask: nat)
    requires ConnectionPrecheck(node, remote).None?
    ensures !IsConnecting(node.book, remote)
    ensures IsConnecting(DialAsWritten(node, remote, Aborted(SelfConnect), now, readTask, writeTask, false).book, remote)
  {
  }

  /** A concrete node for which the leak happens: an empty book, room for peers, and a
      remote address that is not recognisably the node's own. */
  lemma ScenarioSelfConnectLeak()
    ensures var node := Node(Empty(), {}, V4(0x0A00_0001, 4130), Config(1, 10, [], false, 180));
            var remote := V4(0x0A00_0002, 4130);
            && ConnectionPrecheck(node, remote).None?
            && IsConnecting(DialAsWritten(node, remote, Aborted(SelfConnect), 0, 1, 2, false).book, remote)
            && !IsConnecting(Dial(node, remote, Aborted(SelfConnect), 0, 1, 2).book, remote)
  {
    var node := Node(Empty(), {}, V4(0x0A00_0001, 4130), Config(1, 10, [], false, 180));
    var remote := V4(0x0A00_0002, 4130);
    assert !IsSelfConnect(remote, node.own);
    DialAsWrittenLeaksSelfConnect(node, remote, 0, 1, 2);
  }

  /** Connecting a peer keeps the node consistent. */
  lemma NodeSetConnectedPreservesConsistency(node: Node, remote: SocketAddr, listener: SocketAddr, now: Time,
                                             readTask: nat, writeTask: nat)
    requires Consistent(node)
    ensures Consistent(NodeSetConnected(node, remote, listener, now, readTask, writeTask).node)
  {
    if listener !in node.book.connected {
      var booked := SetConnected(node.book, remote, Some(listener), now);
      PeerBookProperties.SetConnectedPreservesValid(node.book, remote, Some(listener), now);
      var withRead := RegisterTask(booked, listener, PeerInfos.Task(readTask, true));
      PeerBookProperties.RegisterTaskPreservesValid(booked, listener, PeerInfos.Task(readTask, true));
      PeerBookProperties.RegisterTaskPreservesValid(withRead, listener, PeerInfos.Task(writeTask, false));
    }
  }

  /** A connection attempt keeps the node consistent. */
  lemma InitiateConnectionPreservesConsistency(node: Node, remote: SocketAddr, outcome: HandshakeOutcome, now: Time,
                                               readTask: nat, writeTask: nat)
    requires Consistent(node)
    ensures Consistent(InitiateConnection(node, remote, outcome, now, readTask, writeTask).node)
  {
    if ConnectionPrecheck(node, remote).None? {
      var pending := node.(book := SetConnecting(node.book, remote).value);
      PeerBookProperties.SetConnectingPreservesValid(node.book, remote);
      assert Consistent(pending);
      if outcome.Completed? {
        NodeSetConnectedPreservesConsistency(pending, remote, remote, now, readTask, writeTask);
      }
    }
  }

  /** A dial, clean-up included, keeps the node consistent. */
  lemma DialPreservesConsistency(node: Node, remote: SocketAddr, outcome: HandshakeOutcome, now: Time,
                                 readTask: nat, writeTask: nat)
    requires Consistent(node)
    ensures Consistent(Dial(node, remote, outcome, now, readTask, writeTask))
  {
    var attempt := InitiateConnection(node, remote, outcome, now, readTask, writeTask);
    InitiateConnectionPreservesConsistency(node, remote, outcome, now, readTask, writeTask);
    if attempt.result.Err? {
      MarkFailedDialPreservesConsistency(attempt.node, remote, attempt.result.error, now);
    }
  }

  /** A successful dial stays within the maximum: the connecting slot it takes is
      handed to the connection. */
  lemma DialRespectsMaxPeers(node: Node, remote: SocketAddr, now: Time, readTask: nat, writeTask: nat)
    requires |node.book.connected| < U16_LIMIT && |node.book.connecting| < U16_LIMIT
    ensures var attempt := InitiateConnection(node, remote, Completed, now, readTask, writeTask);
      attempt.result.Ok? ==>
        |attempt.node.book.connected| + |attempt.node.book.connecting| <= node.config.maxPeers as int
  {
    var attempt := InitiateConnection(node, remote, Completed, now, readTask, writeTask);
    if attempt.result.Ok? {
      assert ConnectionPrecheck(node, remote).None?;
      assert attempt.node.book.connected.Keys == node.book.connected.Keys + {remote};
      assert attempt.node.book.connecting == node.book.connecting;
    }
  }

  /** The failed-dial clean-up keeps the node consistent. */
  lemma MarkFailedDialPreservesConsistency(node: Node, remote: SocketAddr, e: NetworkError, now: Time)
    requires Consistent(node)
    ensures Consistent(MarkFailedDial(node, remote, now))
    ensures Consistent(DialFailureResponse(node, remote, e, now))
  {
    PeerBookProperties.SetDisconnectedPreservesValid(node.book, remote, now);
    var n := DisconnectFromPeer(node, remote, now);
    PeerBookProperties.MembershipUpdatesPreserveValid(n.book, remote, now);
  }

  // ---------------------------------------------------------------------------
  // Disconnecting several peers
  // ---------------------------------------------------------------------------

  /** `disconnect_from_peer` for each address in turn. */
  function DisconnectAll(node: Node, addrs: seq<SocketAddr>, now: Time): (r: Node)
    ensures r.own == node.own && r.config == node.config
    ensures forall k :: k !in addrs ==>
      Standing(r.book, k) == Standing(node.book, k) && (k in r.channels <==> k in node.channels)
    decreases |addrs|
  {
    if addrs == [] then node
    else DisconnectAll(DisconnectFromPeer(node, addrs[0], now), addrs[1..], now)
  }

  /** How `disconnect_from_peer` treats an address depends only on where that address
      stands. */
  lemma DisconnectFromPeerIsLocal(n1: Node, n2: Node, a: SocketAddr, now: Time)
    requires Standing(n1.book, a) == Standing(n2.book, a)
    requires a in n1.channels <==> a in n2.channels
    ensures Standing(DisconnectFromPeer(n1, a, now).book, a) == Standing(DisconnectFromPeer(n2, a, now).book, a)
    ensures a in DisconnectFromPeer(n1, a, now).channels <==> a in DisconnectFromPeer(n2, a, now).channels
  {
    assert IsConnecting(n1.book, a) == IsConnecting(n2.book, a);
    assert IsConnected(n1.book, a) == IsConnected(n2.book, a);
    if !IsConnecting(n1.book, a) && IsConnected(n1.book, a) {
      assert n1.book.connected[a] == n2.book.connected[a];
    }
  }

  /** Disconnecting distinct addresses one after another treats each as if it were
      disconnected alone, and leaves every other address as it was. */
  lemma {:induction false} DisconnectAllEffect(node: Node, addrs: seq<SocketAddr>, now: Time)
    requires Distinct(addrs)
    ensures var r := DisconnectAll(node, addrs, now);
      forall k :: k !in addrs ==>
        Standing(r.book, k) == Standing(node.book, k) && (k in r.channels <==> k in node.channels)
    ensures var r := DisconnectAll(node, addrs, now);
      forall k :: k in addrs ==>
        && Standing(r.book, k) == Standing(DisconnectFromPeer(node, k, now).book, k)
        && (k in r.channels <==> k in DisconnectFromPeer(node, k, now).channels)
    decreases |addrs|
  {
    if addrs != [] {
      var first := DisconnectFromPeer(node, addrs[0], now);
      var rest := addrs[1..];
      assert Distinct(rest) by {
        forall i, j | 0 <= i < j < |rest| ensures rest[i] != rest[j] {
          assert rest[i] == addrs[i + 1] && rest[j] == addrs[j + 1];
        }
      }
      assert addrs[0] !in rest by {
        forall i | 0 <= i < |rest| ensures rest[i] != addrs[0] {
          assert rest[i] == addrs[i + 1];
        }
      }
      DisconnectAllEffect(first, rest, now);
      forall k | k in rest
        ensures Standing(DisconnectFromPeer(first, k, now).book, k) == Standing(DisconnectFromPeer(node, k, now).book, k)
        ensures k in DisconnectFromPeer(first, k, now).channels <==> k in DisconnectFromPeer(node, k, now).channels
      {
        DisconnectFromPeerIsLocal(first, node, k, now);
      }
      assert forall k :: k in addrs <==> k == addrs[0] || k in rest;
    }
  }

  /** Disconnecting peers one by one keeps the node consistent. */
  lemma {:induction false} DisconnectAllPreservesConsistency(node: Node, addrs: seq<SocketAddr>, now: Time)
    requires Consistent(node)
    ensures Consistent(DisconnectAll(node, addrs, now))
    decreases |addrs|
  {
    if addrs != [] {
      var first := DisconnectFromPeer(node, addrs[0], now);
      PeerBookProperties.SetDisconnectedPreservesValid(node.book, addrs[0], now);
      assert Consistent(first);
      DisconnectAllPreservesConsistency(first, addrs[1..], now);
    }
  }

  // ---------------------------------------------------------------------------
  // The maintenance pass
  // ---------------------------------------------------------------------------

  /** A round trip above this many milliseconds gets a peer dropped. */
  const MAX_RTT_MS: nat := 1500

  /** This many failures get a peer dropped. */
  const MAX_FAILURES: nat := 3

  function IsLowQuality(q: PeerQuality, now: Time, maxInactivitySecs: nat): (r: bool)
    ensures q.rttMs > MAX_RTT_MS ==> r
    ensures q.failures >= MAX_FAILURES ==> r
    ensures PeerInfos.IsInactive(q, now, maxInactivitySecs) ==> r
    ensures r && q.rttMs <= MAX_RTT_MS && q.failures < MAX_FAILURES ==> PeerInfos.IsInactive(q, now, maxInactivitySecs)
  {
    q.rttMs > MAX_RTT_MS || q.failures >= MAX_FAILURES || PeerInfos.IsInactive(q, now, maxInactivitySecs)
  }

  /** The connected peers the pass drops first: every non-bootnode peer whose round
      trip is too slow, which failed too often or which went quiet. */
  function QualityEvictions(node: Node, now: Time): (r: set<SocketAddr>)
    ensures forall a :: a in r ==> a in node.book.connected && a !in node.config.bootnodes
    ensures forall a :: a in node.book.connected && a !in node.config.bootnodes ==>
      (a in r <==> IsLowQuality(node.book.connected[a].quality, now, node.config.maxInactivitySecs))
  {
    set a | a in node.book.connected && a !in node.config.bootnodes
          && IsLowQuality(node.book.connected[a].quality, now, node.config.maxInactivitySecs)
  }

  /** The number of peers to drop and the number to dial, from the connected and
      connecting counts. What the targets achieve: a regular node drops down to the
      maximum and dials up to the minimum (dialling nothing once the minimum is
      reached); a bootnode drops down to the minimum and dials enough to leave the
      minimum's worth of room below the maximum. */
  function PeerCountTargets(cfg: Config, connected: nat, connecting: nat): (r: (nat, nat))
    ensures r.0 <= connected
    ensures !cfg.isBootnode ==> connected - r.0 == Min(connected, cfg.maxPeers)
    ensures !cfg.isBootnode ==> (r.1 == 0 <==> connected + connecting >= cfg.minPeers as int)
    ensures !cfg.isBootnode && r.1 > 0 ==> connected + connecting + r.1 == cfg.minPeers as int
    ensures cfg.isBootnode ==> connected - r.0 == Min(connected, cfg.minPeers)
    ensures cfg.isBootnode ==> r.1 + 2 * cfg.minPeers >= cfg.maxPeers as int
    ensures cfg.isBootnode && r.1 > 0 ==> r.1 + 2 * cfg.minPeers == cfg.maxPeers as int
  {
    if cfg.isBootnode then
      (SaturatingSub(connected, cfg.minPeers), SaturatingSub(cfg.maxPeers, 2 * cfg.minPeers))
    else
      (SaturatingSub(connected, cfg.maxPeers), SaturatingSub(cfg.minPeers, connected + connecting))
  }

  /** Picks the entry with the latest time (no time is the earliest). */
  method Latest(entries: map<SocketAddr, Option<Time>>, pool: set<SocketAddr>) returns (v: SocketAddr)
    requires pool != {} && pool <= entries.Keys
    ensures v in pool
    ensures forall w :: w in pool ==> OptionLe(entries[w], entries[v])
  {
    v :| v in pool;
    var todo := pool - {v};
    while todo != {}
      invariant todo <= pool && v in pool
      invariant forall w :: w in pool - todo ==> OptionLe(entries[w], entries[v])
      decreases todo
    {
      var w :| w in todo;
      if !OptionLe(entries[w], entries[v]) {
        v := w;
      }
      todo := todo - {w};
    }
  }

  /** The peers dropped to respect the count: up to `n` of the connected peers. A
      regular node sorts them by when they connected and drops from the most recent
      end; a bootnode drops them in the map's unspecified order. */
  method SelectVictims(entries: map<SocketAddr, Option<Time>>, n: nat, newestFirst: bool)
    returns (victims: seq<SocketAddr>)
    ensures |victims| == Min(n, |entries.Keys|)
    ensures Distinct(victims)
    ensures forall v :: v in victims ==> v in entries
    ensures newestFirst ==> forall i, j :: 0 <= i < j < |victims| ==>
      OptionLe(entries[victims[j]], entries[victims[i]])
    ensures newestFirst ==> forall v, w :: v in victims && w in entries && w !in victims ==>
      OptionLe(entries[w], entries[v])
  {
    victims := [];
    var rest := entries.Keys;
    while |victims| < n && rest != {}
      invariant rest <= entries.Keys
      invariant Distinct(victims)
      invariant forall v :: v in victims ==> v in entries && v !in rest
      invariant forall k :: k in entries && k !in rest ==> k in victims
      invariant |victims| + |rest| == |entries.Keys|
      invariant |victims| <= n
      invariant newestFirst ==> forall i, j :: 0 <= i < j < |victims| ==>
        OptionLe(entries[victims[j]], entries[victims[i]])
      invariant newestFirst ==> forall v, w :: v in victims && w in rest ==> OptionLe(entries[w], entries[v])
      decreases rest
    {
      var v;
      if newestFirst {
        v := Latest(entries, rest);
      } else {
        v :| v in rest;
      }
      victims := victims + [v];
      rest := rest - {v};
    }
  }

  /** `choose_multiple`: as many distinct elements of the pool as asked for, or the
      whole pool when it is smaller, in no particular order. */
  method ChooseMultiple(pool: set<SocketAddr>, amount: nat) returns (chosen: seq<SocketAddr>)
    ensures |chosen| == Min(amount, |pool|)
    ensures Distinct(chosen)
    ensures forall x :: x in chosen ==> x in pool
  {
    chosen := [];
    var rest := pool;
    while |chosen| < amount && rest != {}
      invariant rest <= pool
      invariant Distinct(chosen)
      invariant forall x :: x in chosen ==> x in pool && x !in rest
      invariant |chosen| + |rest| == |pool|
      invariant |chosen| <= amount
      decreases rest
    {
      var x :| x in rest;
      chosen := chosen + [x];
      rest := rest - {x};
    }
  }

  /** The bootnodes `connect_to_bootnodes` dials: every configured bootnode other than
      the node itself, in configuration order. */
  function BootnodesToDial(bootnodes: seq<SocketAddr>, own: SocketAddr): (r: seq<SocketAddr>)
    ensures forall a :: a in r <==> a in bootnodes && a != own
    ensures |r| <= |bootnodes|
    ensures own in bootnodes ==> |r| < |bootnodes|
  {
    if bootnodes == [] then []
    else
      var rest := BootnodesToDial(bootnodes[1..], own);
      if bootnodes[0] == own then rest else [bootnodes[0]] + rest
  }

  /** The disconnected peers `connect_to_disconnected_peers` may pick from. */
  function DialCandidates(node: Node): set<SocketAddr> {
    set a | a in node.book.disconnected && a != node.own && a !in node.config.bootnodes
  }

  /** `connect_to_disconnected_peers`' choice: up to `count` distinct disconnected
      peers, never the node itself and never a bootnode. */
  method ConnectCandidates(node: Node, count: nat) returns (chosen: seq<SocketAddr>)
    ensures |chosen| == Min(count, |DialCandidates(node)|)
    ensures Distinct(chosen)
    ensures forall a :: a in chosen ==>
      a in node.book.disconnected && a != node.own && a !in node.config.bootnodes
  {
    chosen := ChooseMultiple(DialCandidates(node), count);
  }

  /** `broadcast_getpeers_requests` asks for peers when the node is a bootnode or is
      below its minimum. */
  function ShouldAskForPeers(node: Node): (r: bool)
    ensures node.config.isBootnode ==> r
    ensures |node.book.connected| + |node.book.connecting| < node.config.minPeers as int ==> r
    ensures !node.config.isBootnode && |node.book.connected| < U16_LIMIT && |node.book.connecting| < U16_LIMIT ==>
      (r <==> |node.book.connected| + |node.book.connecting| < node.config.minPeers as int)
  {
    node.config.isBootnode
    || NumberOfConnected(node.book) as int + NumberOfConnecting(node.book) as int < node.config.minPeers as int
  }

  /** The `GetPeers` requests of `broadcast_getpeers_requests`. */
  function GetPeersRequests(node: Node): (r: set<Message>)
    ensures forall m :: m in r ==> m.payload == GetPeers && m.direction.Outbound? && m.direction.to in node.book.connected
    ensures ShouldAskForPeers(node) ==> forall a :: a in node.book.connected ==> Message(Outbound(a), GetPeers) in r
    ensures !ShouldAskForPeers(node) ==> r == {}
  {
    if ShouldAskForPeers(node) then set a | a in node.book.connected :: Message(Outbound(a), GetPeers)
    else {}
  }

  /** `broadcast_pings`: every connected peer is sent a ping carrying the current block
      height (zero without a sync layer) and now expects a pong. */
  function BroadcastPings(node: Node, height: Option<u32>, now: Time): (r: (Node, set<Message>))
    ensures r.0 == node.(book := r.0.book)
    ensures r.0.book.connecting == node.book.connecting && r.0.book.disconnected == node.book.disconnected
    ensures r.0.book.connected.Keys == node.book.connected.Keys
    ensures forall a :: a in r.0.book.connected ==>
      && r.0.book.connected[a] == node.book.connected[a].(quality := r.0.book.connected[a].quality)
      && r.0.book.connected[a].quality.expectingPong
      && r.0.book.connected[a].quality.lastPingSent == Some(now)
    ensures forall m :: m in r.1 <==>
      m.direction.Outbound? && m.direction.to in node.book.connected
      && m.payload == Ping(if height.Some? then height.value else 0)
  {
    var h := if height.Some? then height.value else 0;
    var connected := map a | a in node.book.connected ::
      node.book.connected[a].(quality := node.book.connected[a].quality.(lastPingSent := Some(now), expectingPong := true));
    (node.(book := node.book.(connected := connected)),
     set a | a in node.book.connected :: Message(Outbound(a), Ping(h)))
  }

  /** The broadcast does to every connected peer what `sending_ping` does to one. */
  lemma BroadcastPingsSendsEachPing(node: Node, height: Option<u32>, now: Time, a: SocketAddr)
    requires a in node.book.connected
    ensures BroadcastPings(node, height, now).0.book.connected[a] == SendingPing(node.book, a, now).connected[a]
  {
  }

  /** A ping from the broadcast answered by a pong at `later` records the elapsed time
      as the round trip and charges no failure. */
  lemma PingThenPongMeasuresRoundTrip(node: Node, height: Option<u32>, now: Time, later: Time, a: SocketAddr)
    requires a in node.book.connected
    ensures var pinged := BroadcastPings(node, height, now).0.book;
      && ReceivedPong(pinged, a, later).connected[a].quality.rttMs == ElapsedMs(now, later)
      && ReceivedPong(pinged, a, later).connected[a].quality.failures == node.book.connected[a].quality.failures
      && !ReceivedPong(pinged, a, later).connected[a].quality.expectingPong
  {
  }

  /** The broadcast keeps the node consistent. */
  lemma BroadcastPingsPreservesConsistency(node: Node, height: Option<u32>, now: Time)
    requires Consistent(node)
    ensures Consistent(BroadcastPings(node, height, now).0)
  {
  }

  /** `send_peers`: up to `SHARED_PEER_COUNT` distinct connected peers, never the
      requester itself, sent back to the requester. */
  method SendPeers(node: Node, remote: SocketAddr) returns (m: Message)
    ensures m.direction == Outbound(remote) && m.payload.Peers?
    ensures |m.payload.addresses| == Min(SHARED_PEER_COUNT, |node.book.connected.Keys - {remote}|)
    ensures Distinct(m.payload.addresses)
    ensures forall a :: a in m.payload.addresses ==> a in node.book.connected && a != remote
  {
    var peers := ChooseMultiple(node.book.connected.Keys - {remote}, SHARED_PEER_COUNT);
    m := Message(Outbound(remote), Peers(peers));
  }

  /** The first step of `update_peers`: every low-quality peer is disconnected. The
      evicted peers end up disconnected (the connecting flag of one that was also
      mid-handshake is cleared instead), and no other address is touched. */
  method EvictLowQuality(node: Node, now: Time) returns (evicted: seq<SocketAddr>, r: Node)
    requires Consistent(node)
    ensures Distinct(evicted) && forall a :: a in evicted <==> a in QualityEvictions(node, now)
    ensures r == DisconnectAll(node, evicted, now)
    ensures Consistent(r)
    ensures forall a :: a !in evicted ==>
      Standing(r.book, a) == Standing(node.book, a) && (a in r.channels <==> a in node.channels)
    ensures forall a :: a in evicted ==> !IsConnecting(r.book, a)
    ensures forall a :: a in evicted && !IsConnecting(node.book, a) ==>
      !IsConnected(r.book, a) && IsDisconnected(r.book, a)
  {
    var evictions := QualityEvictions(node, now);
    evicted := ChooseMultiple(evictions, |evictions|);
    DistinctCoversPool(evicted, evictions);
    r := DisconnectAll(node, evicted, now);
    DisconnectAllEffect(node, evicted, now);
    DisconnectAllPreservesConsistency(node, evicted, now);
    forall a | a in evicted
      ensures !IsConnecting(r.book, a)
      ensures !IsConnecting(node.book, a) ==> !IsConnected(r.book, a) && IsDisconnected(r.book, a)
    {
      assert Standing(r.book, a) == Standing(DisconnectFromPeer(node, a, now).book, a);
    }
  }

  /** The second step of `update_peers`: the peers dropped to meet the target count
      are disconnected, and no other address is touched. */
  method TrimToTarget(node: Node, now: Time) returns (victims: seq<SocketAddr>, r: Node)
    requires Consistent(node)
    ensures |victims| == Min(PeerCountTargets(node.config, NumberOfConnected(node.book), NumberOfConnecting(node.book)).0,
                             |node.book.connected.Keys|)
    ensures Distinct(victims) && forall v :: v in victims ==> v in node.book.connected
    ensures !node.config.isBootnode ==>
      forall v, w :: v in victims && w in node.book.connected && w !in victims ==>
        OptionLe(node.book.connected[w].lastConnected, node.book.connected[v].lastConnected)
    ensures r == DisconnectAll(node, victims, now)
    ensures Consistent(r)
    ensures forall a :: a !in victims ==>
      Standing(r.book, a) == Standing(node.book, a) && (a in r.channels <==> a in node.channels)
    ensures forall a :: a in victims && !IsConnecting(node.book, a) ==> !IsConnected(r.book, a)
  {
    var targets := PeerCountTargets(node.config, NumberOfConnected(node.book), NumberOfConnecting(node.book));
    var entries := map a | a in node.book.connected :: node.book.connected[a].lastConnected;
    assert entries.Keys == node.book.connected.Keys;
    victims := SelectVictims(entries, targets.0, !node.config.isBootnode);
    r := DisconnectAll(node, victims, now);
    DisconnectAllEffect(node, victims, now);
    DisconnectAllPreservesConsistency(node, victims, now);
    forall a | a in victims && !IsConnecting(node.book, a) ensures !IsConnected(r.book, a) {
      assert Standing(r.book, a) == Standing(DisconnectFromPeer(node, a, now).book, a);
    }
  }

  /** The last step of `update_peers`: while anything is connected, the `GetPeers`
      requests and the pings go out. Only the connected peers' quality changes. */
  method BroadcastIfConnected(node: Node, height: Option<u32>, now: Time) returns (r: Node, sent: set<Message>)
    requires Consistent(node)
    ensures Consistent(r)
    ensures r.own == node.own && r.config == node.config && r.channels == node.channels
    ensures r.book.connecting == node.book.connecting && r.book.disconnected == node.book.disconnected
    ensures r.book.connected.Keys == node.book.connected.Keys
    ensures NumberOfConnected(node.book) == 0 ==> r == node && sent == {}
    ensures forall msg :: msg in sent ==>
      msg.direction.Outbound? && msg.direction.to in node.book.connected
      && (msg.payload == GetPeers || msg.payload.Ping?)
    ensures NumberOfConnected(node.book) != 0 ==> forall a :: a in node.book.connected ==>
      && Message(Outbound(a), Ping(if height.Some? then height.value else 0)) in sent
      && r.book.connected[a].quality.expectingPong
      && r.book.connected[a].quality.lastPingSent == Some(now)
    ensures NumberOfConnected(node.book) != 0 ==> forall a ::
      Message(Outbound(a), GetPeers) in sent <==> a in node.book.connected && ShouldAskForPeers(node)
  {
    r, sent := node, {};
    if NumberOfConnected(node.book) != 0 {
      var pinged := BroadcastPings(node, height, now);
      BroadcastPingsPreservesConsistency(node, height, now);
      sent := GetPeersRequests(node) + pinged.1;
      r := pinged.0;
    }
  }

  /** What one maintenance pass did and decided. */
  datatype Maintenance = Maintenance(
    node: Node,
    evicted: seq<SocketAddr>,
    victims: seq<SocketAddr>,
    bootnodeDials: seq<SocketAddr>,
    peerDials: seq<SocketAddr>,
    sent: set<Message>)

  /** `update_peers`: drop low-quality peers, drop down to the target count, dial
      bootnodes when nothing is connected, dial disconnected peers up to the target,
      and, while anything is connected, ask for peers and ping everyone. The dials'
      own effects happen later, one `Dial` each. */
  method UpdatePeers(node: Node, now: Time, height: Option<u32>) returns (m: Maintenance)
    requires Consistent(node)
    ensures Consistent(m.node)
    ensures m.node.own == node.own && m.node.config == node.config
    ensures Distinct(m.evicted) && forall a :: a in m.evicted <==> a in QualityEvictions(node, now)
    ensures forall a :: a in m.evicted && !IsConnecting(node.book, a) ==>
      !IsConnected(m.node.book, a) && IsDisconnected(m.node.book, a)
    ensures var afterEviction := DisconnectAll(node, m.evicted, now);
      && |m.victims| == Min(PeerCountTargets(node.config, NumberOfConnected(afterEviction.book),
                                             NumberOfConnecting(afterEviction.book)).0,
                            |afterEviction.book.connected.Keys|)
      && Distinct(m.victims)
      && (forall v :: v in m.victims ==> v in afterEviction.book.connected)
      && (!node.config.isBootnode ==> forall v, w :: v in m.victims && w in afterEviction.book.connected && w !in m.victims ==>
            OptionLe(afterEviction.book.connected[w].lastConnected, afterEviction.book.connected[v].lastConnected))
      && m.bootnodeDials == (if NumberOfConnected(afterEviction.book) == 0 then BootnodesToDial(node.config.bootnodes, node.own) else [])
    ensures forall a :: a in m.victims ==> a in node.book.connected
    ensures forall a :: a in m.victims && !IsConnecting(node.book, a) ==> !IsConnected(m.node.book, a)
    ensures var afterEviction := DisconnectAll(node, m.evicted, now);
      var afterTrim := DisconnectAll(afterEviction, m.victims, now);
      var toConnect := PeerCountTargets(node.config, NumberOfConnected(afterEviction.book),
                                        NumberOfConnecting(afterEviction.book)).1;
      && |m.peerDials| == (if toConnect == 0 then 0 else Min(toConnect, |DialCandidates(afterTrim)|))
      && (forall a :: a in m.peerDials ==> a in afterTrim.book.disconnected)
    ensures Distinct(m.peerDials)
    ensures forall a :: a in m.peerDials ==> a != node.own && a !in node.config.bootnodes
    ensures forall msg :: msg in m.sent ==>
      msg.direction.Outbound? && msg.direction.to in m.node.book.connected
      && (msg.payload == GetPeers || msg.payload.Ping?)
    ensures var afterTrim := DisconnectAll(DisconnectAll(node, m.evicted, now), m.victims, now);
      && (NumberOfConnected(afterTrim.book) == 0 ==> m.node == afterTrim && m.sent == {})
      && (NumberOfConnected(afterTrim.book) != 0 ==> forall a :: a in afterTrim.book.connected ==>
            Message(Outbound(a), Ping(if height.Some? then height.value else 0)) in m.sent
            && m.node.book.connected[a].quality.expectingPong)
      && (NumberOfConnected(afterTrim.book) != 0 ==> forall a ::
            Message(Outbound(a), GetPeers) in m.sent <==> a in afterTrim.book.connected && ShouldAskForPeers(afterTrim))
  {
    var evicted, afterEviction := EvictLowQuality(node, now);
    var victims, afterTrim := TrimToTarget(afterEviction, now);
    forall a | a in victims ensures a in node.book.connected {
      assert a in afterEviction.book.connected;
    }

    var bootnodeDials := if NumberOfConnected(afterEviction.book) == 0 then BootnodesToDial(node.config.bootnodes, node.own) else [];
    var targets := PeerCountTargets(node.config, NumberOfConnected(afterEviction.book), NumberOfConnecting(afterEviction.book));
    var peerDials: seq<SocketAddr> := [];
    if targets.1 != 0 {
      peerDials := ConnectCandidates(afterTrim, targets.1);
    }

    var final, sent := BroadcastIfConnected(afterTrim, height, now);
    EvictedStayDisconnected(node.book, afterEviction.book, afterTrim.book, final.book, evicted, victims);
    forall a | a in victims && !IsConnecting(node.book, a) ensures !IsConnected(final.book, a) {
      assert a in afterEviction.book.connected;
      assert !IsConnecting(afterEviction.book, a);
    }
    m := Maintenance(final, evicted, victims, bootnodeDials, peerDials, sent);
  }

  /** A peer evicted for low quality is not among the trimmed victims (those were
      still connected), so it stays disconnected through the rest of the pass. */
  lemma EvictedStayDisconnected(b: PeerBook, evictedBook: PeerBook, trimmedBook: PeerBook, pingedBook: PeerBook,
                                evicted: seq<SocketAddr>, victims: seq<SocketAddr>)
    requires forall a :: a in evicted && !IsConnecting(b, a) ==>
      !IsConnected(evictedBook, a) && IsDisconnected(evictedBook, a)
    requires forall v :: v in victims ==> v in evictedBook.connected
    requires forall a :: a !in victims ==> Standing(trimmedBook, a) == Standing(evictedBook, a)
    requires pingedBook.connected.Keys == trimmedBook.connected.Keys
    requires pingedBook.disconnected == trimmedBook.disconnected
    ensures forall a :: a in evicted && !IsConnecting(b, a) ==>
      !IsConnected(pingedBook, a) && IsDisconnected(pingedBook, a)
  {
    forall a | a in evicted && !IsConnecting(b, a)
      ensures !IsConnected(pingedBook, a) && IsDisconnected(pingedBook, a)
    {
      assert a !in victims;
      assert Standing(trimmedBook, a) == Standing(evictedBook, a);
    }
  }

  /** A duplicate-free selection as large as its pool is the whole pool. */
  lemma DistinctCoversPool(chosen: seq<SocketAddr>, pool: set<SocketAddr>)
    requires Distinct(chosen) && |chosen| == |pool|
    requires forall x :: x in chosen ==> x in pool
    ensures forall x :: x in pool ==> x in chosen
  {
    var listed := set x | x in chosen;
    DistinctSize(chosen);
    var extra := pool - listed;
    assert pool == listed + extra;
    assert listed * extra == {};
    assert |extra| == 0;
  }

  /** A duplicate-free sequence has as many distinct elements as entries. */
  lemma {:induction false} DistinctSize(s: seq<SocketAddr>)
    requires Distinct(s)
    ensures |set x | x in s| == |s|
  {
    if s != [] {
      var init := s[..|s| - 1];
      var last := s[|s| - 1];
      assert Distinct(init);
      DistinctSize(init);
      assert last !in init by {
        forall i | 0 <= i < |init| ensures init[i] != last {
          assert init[i] == s[i];
        }
      }
      assert (set x | x in s) == (set x | x in init) + {last} by {
        assert s == init + [last];
      }
    }
  }

  // ---------------------------------------------------------------------------
  // Peer lists from other nodes
  // ---------------------------------------------------------------------------

  /** `add_peer` for every listed address other than the node's own: only the
      disconnected peers can change. */
  function AddPeers(b: PeerBook, peers: seq<SocketAddr>, own: SocketAddr): (r: PeerBook)
    ensures r.connected == b.connected && r.connecting == b.connecting
    decreases |peers|
  {
    if peers == [] then b
    else AddPeers(if peers[0] != own then AddPeer(b, peers[0]) else b, peers[1..], own)
  }

  /** Adding a peer list keeps the book invariant. */
  lemma {:induction false} AddPeersPreservesValid(b: PeerBook, peers: seq<SocketAddr>, own: SocketAddr)
    ensures Valid(b) ==> Valid(AddPeers(b, peers, own))
    decreases |peers|
  {
    if peers != [] && Valid(b) {
      PeerBookProperties.MembershipUpdatesPreserveValid(b, peers[0], 0);
      AddPeersPreservesValid(if peers[0] != own then AddPeer(b, peers[0]) else b, peers[1..], own);
    }
  }

  /** Adding a peer list makes every listed address other than the node's own known,
      with a fresh record when it was new, and leaves every known or unlisted address
      where it stood. */
  lemma {:induction false} AddPeersEffect(b: PeerBook, peers: seq<SocketAddr>, own: SocketAddr)
    ensures var r := AddPeers(b, peers, own);
      forall a :: a == own || a !in peers || Known(b, a) ==> Standing(r, a) == Standing(b, a)
    ensures var r := AddPeers(b, peers, own);
      forall a :: a in peers && a != own && !Known(b, a) ==>
        Standing(r, a) == (false, None, Some(PeerInfos.New(a)))
    decreases |peers|
  {
    if peers != [] {
      var next := if peers[0] != own then AddPeer(b, peers[0]) else b;
      AddPeersEffect(next, peers[1..], own);
      assert forall a :: a in peers <==> a == peers[0] || a in peers[1..];
      assert forall a :: a != peers[0] ==> Standing(next, a) == Standing(b, a);
    }
  }

  /** `process_inbound_peers`: the listed addresses other than the node's own are added
      to the book, and a crawler's topology records the whole list as the source's
      connections. */
  function ProcessInboundPeers(node: Node, topology: Option<Topology.NetworkTopology>,
                               source: SocketAddr, peers: seq<SocketAddr>): (r: (Node, Option<Topology.NetworkTopology>))
    ensures r.0 == node.(book := r.0.book)
    ensures forall a :: a in peers && a != node.own ==> Known(r.0.book, a)
    ensures forall a :: a == node.own || a !in peers || Known(node.book, a) ==>
      Standing(r.0.book, a) == Standing(node.book, a)
    ensures Consistent(node) ==> Consistent(r.0)
    ensures r.1.Some? <==> topology.Some?
    ensures r.1.Some? ==> Topology.IncidentTo(r.1.value, source) == Topology.Reported(source, peers)
  {
    AddPeersEffect(node.book, peers, node.own);
    AddPeersPreservesValid(node.book, peers, node.own);
    var book := AddPeers(node.book, peers, node.own);
    assert forall a :: a in peers && a != node.own && !Known(node.book, a) ==> a in book.disconnected;
    match topology
    case None => (node.(book := book), None)
    case Some(t) =>
      Topology.UpdateReplacesSourceConnections(t, source, peers);
      (node.(book := book), Some(Topology.Update(t, source, peers)))
  }
}

=== FILE: topology.dfy ===
/**
  The crawler's record of who is connected to whom: a set of undirected
  connections, refreshed from each peer list a node reports, and the two integer
  measures of the crawled network (connection count, degree spread).
 */
module Topology {
  import opened Base
  import opened Addresses
  import PeerBooks

  /** A connection between two addresses, in whichever orientation it was reported. */
  datatype Connection = Connection(a: SocketAddr, b: SocketAddr)

  /** `PartialEq for Connection`: the same two endpoints, in either orientation. */
  function SameConnection(x: Connection, y: Connection): (r: bool)
    ensures r <==> {x.a, x.b} == {y.a, y.b}
  {
    (x.a == y.b && x.b == y.a) || (x.a == y.a && x.b == y.b)
  }

  /** The endpoint pair `Hash for Connection` feeds to the hasher: the smaller
      address first (the pair as given when the endpoints are equal or ordered). */
  function HashedPair(c: Connection): (r: Connection)
    ensures SameConnection(r, c)
    ensures Cmp(r.a, r.b) != Greater
  {
    CmpFlip(c.a, c.b);
    if Cmp(c.a, c.b) == Greater then Connection(c.b, c.a) else c
  }

  /** Connection equality ignores orientation and is an equivalence. */
  lemma SameConnectionIsUnordered(x: Connection, y: Connection, z: Connection)
    ensures SameConnection(x, x)
    ensures SameConnection(Connection(x.a, x.b), Connection(x.b, x.a))
    ensures SameConnection(x, y) ==> SameConnection(y, x)
    ensures SameConnection(x, y) && SameConnection(y, z) ==> SameConnection(x, z)
  {
  }

  /** Hashing agrees with equality, in both directions: two connections are equal
      exactly when they hash the same endpoint pair. */
  lemma HashAgreesWithEquality(x: Connection, y: Connection)
    ensures SameConnection(x, y) <==> HashedPair(x) == HashedPair(y)
  {
    CmpFlip(x.a, x.b);
    CmpFlip(y.a, y.b);
    CmpEqualIff(x.a, x.b);
    CmpEqualIff(y.a, y.b);
    CmpEqualIff(x.a, y.a);
    CmpEqualIff(x.a, y.b);
  }

  /** The hash set of connections, keeping one representative (its hashed pair) per
      class of equal connections. */
  datatype NetworkTopology = NetworkTopology(connections: set<Connection>)

  function EmptyTopology(): NetworkTopology { NetworkTopology({}) }

  /** Every stored connection is its own representative. */
  predicate Normalized(t: NetworkTopology) {
    forall c :: c in t.connections ==> HashedPair(c) == c
  }

  /** `HashSet::contains`: some stored connection equals `c`. */
  predicate Contains(t: NetworkTopology, c: Connection) {
    HashedPair(c) in t.connections
  }

  predicate Incident(c: Connection, s: SocketAddr) {
    c.a == s || c.b == s
  }

  /** The connections a peer list reports for `source`. */
  function Reported(source: SocketAddr, peers: seq<SocketAddr>): set<Connection> {
    set p | p in peers :: HashedPair(Connection(source, p))
  }

  /** The stored connections touching `s`. */
  function IncidentTo(t: NetworkTopology, s: SocketAddr): set<Connection> {
    set c | c in t.connections && Incident(c, s)
  }

  /** `NetworkTopology::update`: drops the stored connections of `source` the list no
      longer reports, then adds every reported one. */
  function Update(t: NetworkTopology, source: SocketAddr, peers: seq<SocketAddr>): (r: NetworkTopology)
    ensures Normalized(t) ==> Normalized(r)
  {
    var reported := Reported(source, peers);
    var removed := set c | c in t.connections && c !in reported && Incident(c, source);
    NetworkTopology((t.connections - removed) + reported)
  }

  /** Every reported connection touches its source. */
  lemma ReportedIsIncident(source: SocketAddr, peers: seq<SocketAddr>)
    ensures forall c :: c in Reported(source, peers) ==> Incident(c, source)
  {
  }

  /** After an update, the connections touching `source` are exactly the reported ones. */
  lemma UpdateReplacesSourceConnections(t: NetworkTopology, source: SocketAddr, peers: seq<SocketAddr>)
    ensures IncidentTo(Update(t, source, peers), source) == Reported(source, peers)
  {
    ReportedIsIncident(source, peers);
  }

  /** An update leaves every connection not touching `source` as it was. */
  lemma UpdateKeepsOtherConnections(t: NetworkTopology, source: SocketAddr, peers: seq<SocketAddr>)
    ensures forall c :: !Incident(c, source) ==>
      (c in Update(t, source, peers).connections <==> c in t.connections)
  {
    ReportedIsIncident(source, peers);
  }

  /** After an update, `source` is connected to an address exactly when the list
      reported it. */
  lemma UpdateConnectsExactlyReported(t: NetworkTopology, source: SocketAddr, peers: seq<SocketAddr>, q: SocketAddr)
    ensures Contains(Update(t, source, peers), Connection(source, q)) <==> q in peers
  {
    var c := Connection(source, q);
    UpdateReplacesSourceConnections(t, source, peers);
    assert Incident(HashedPair(c), source);
    if HashedPair(c) in Reported(source, peers) {
      var p :| p in peers && HashedPair(Connection(source, p)) == HashedPair(c);
      HashAgreesWithEquality(Connection(source, p), c);
    }
  }

  /** Reporting again what is already stored changes nothing. */
  lemma UpdateOfKnownConnectionsIsNoOp(t: NetworkTopology, source: SocketAddr, peers: seq<SocketAddr>)
    requires IncidentTo(t, source) == Reported(source, peers)
    ensures Update(t, source, peers) == t
  {
    ReportedIsIncident(source, peers);
  }

  /** Applying the same report twice gives the same topology as applying it once. */
  lemma UpdateIdempotent(t: NetworkTopology, source: SocketAddr, peers: seq<SocketAddr>)
    ensures Update(Update(t, source, peers), source, peers) == Update(t, source, peers)
  {
    UpdateReplacesSourceConnections(t, source, peers);
    UpdateOfKnownConnectionsIsNoOp(Update(t, source, peers), source, peers);
  }

  /** The scenario of the connection-update unit test: a reports b and c; b reports a
      (the count stays at two); c reports only b, which drops a–c and adds c–b. */
  lemma ScenarioConnectionsUpdate()
    ensures var a, b, c := V4(0x0B0B_0B0B, 1000), V4(0x1616_1616, 2000), V4(0x2121_2121, 3000);
            var t1 := Update(EmptyTopology(), a, [b, c]);
            var t2 := Update(t1, b, [a]);
            var t3 := Update(t2, c, [b]);
            && Contains(t1, Connection(a, b)) && Contains(t1, Connection(a, c))
            && |t2.connections| == 2
            && !Contains(t3, Connection(a, c)) && Contains(t3, Connection(c, b))
  {
    var a, b, c := V4(0x0B0B_0B0B, 1000), V4(0x1616_1616, 2000), V4(0x2121_2121, 3000);
    var ab, ac, bc := Connection(a, b), Connection(a, c), Connection(b, c);
    assert HashedPair(ab) == ab && HashedPair(ac) == ac && HashedPair(bc) == bc;
    assert HashedPair(Connection(b, a)) == ab && HashedPair(Connection(c, b)) == bc;
    var t1 := Update(EmptyTopology(), a, [b, c]);
    assert Reported(a, [b, c]) == {ab, ac};
    assert t1.connections == {ab, ac};
    var t2 := Update(t1, b, [a]);
    assert Reported(b, [a]) == {ab};
    assert t2.connections == {ab, ac};
    var t3 := Update(t2, c, [b]);
    assert Reported(c, [b]) == {bc};
    assert t3.connections == {ab, bc};
  }

  // ---------------------------------------------------------------------------
  // Integer measures of a crawled network
  // ---------------------------------------------------------------------------

  /** The sum of the nodes' connected-peer counts (each read as `u16`). */
  function DegreeSum(nodes: seq<PeerBooks.PeerBook>): nat {
    if nodes == [] then 0
    else DegreeSum(nodes[..|nodes| - 1]) + PeerBooks.NumberOfConnected(nodes[|nodes| - 1])
  }

  /** `total_connection_count`: half the degree sum. The running sum is a `u16`; the
      model follows a release build, where it wraps around. */
  method TotalConnectionCount(nodes: seq<PeerBooks.PeerBook>) returns (count: nat)
    ensures count == (DegreeSum(nodes) % U16_LIMIT) / 2
    ensures DegreeSum(nodes) < U16_LIMIT ==> count == DegreeSum(nodes) / 2
  {
    var sum: u16 := 0;
    var i := 0;
    while i < |nodes|
      invariant 0 <= i <= |nodes|
      invariant sum == DegreeSum(nodes[..i]) % U16_LIMIT
    {
      assert nodes[..i + 1][..i] == nodes[..i];
      sum := (sum + PeerBooks.NumberOfConnected(nodes[i])) % U16_LIMIT;
      i := i + 1;
    }
    assert nodes[..i] == nodes;
    count := sum / 2;
  }

  /** `degree_centrality_delta`: the largest connected-peer count minus the smallest;
      the node list must not be empty. */
  method DegreeCentralityDelta(nodes: seq<PeerBooks.PeerBook>) returns (delta: u16)
    requires |nodes| > 0
    ensures exists i, j ::
      (&& 0 <= i < |nodes| && 0 <= j < |nodes|
       && delta == PeerBooks.NumberOfConnected(nodes[i]) - PeerBooks.NumberOfConnected(nodes[j])
       && (forall k :: 0 <= k < |nodes| ==>
             PeerBooks.NumberOfConnected(nodes[j]) <= PeerBooks.NumberOfConnected(nodes[k]) <= PeerBooks.NumberOfConnected(nodes[i])))
  {
    var hi, lo := 0, 0;
    var i := 1;
    while i < |nodes|
      invariant 1 <= i <= |nodes|
      invariant 0 <= hi < i && 0 <= lo < i
      invariant forall k :: 0 <= k < i ==>
        PeerBooks.NumberOfConnected(nodes[lo]) <= PeerBooks.NumberOfConnected(nodes[k]) <= PeerBooks.NumberOfConnected(nodes[hi])
    {
      if PeerBooks.NumberOfConnected(nodes[i]) > PeerBooks.NumberOfConnected(nodes[hi]) {
        hi := i;
      }
      if PeerBooks.NumberOfConnected(nodes[i]) < PeerBooks.NumberOfConnected(nodes[lo]) {
        lo := i;
      }
      i := i + 1;
    }
    delta := PeerBooks.NumberOfConnected(nodes[hi]) - PeerBooks.NumberOfConnected(nodes[lo]);
  }
}
